=== FILE: README.md ===
# Hotel management core, modelled in Dafny

This project models the server-side core of a multi-tenant hotel management application. Each hotel is a *tenant*. Its managers administer rooms, guests and bookings, and an administrator manages user roles and assigns managers to hotels. The model is a pure functional transition system over an immutable `Domain.State`: tenants, rooms, guests, bookings, notifications, users and sessions. Each controller action is a function from a state and a request to `Result<State>`. A request the controller would refuse becomes an `Err` that says why:

- validation failure, with the offending fields;
- room unavailable;
- not found;
- own role;
- own account.

The model covers the following parts of the core:

- **Bookings** (`bookings.dfy`, `allocator.dfy`). Create, update and delete a booking inside the caller's hotel. The room `status` column is the only lock a booking takes: creating a booking sets it to `occupied`, and cancelling sets it back to `available`.
- **Occupancy invariant** (`occupancy.dfy`). Every booking holds an `occupied` room of its own hotel, and no two bookings hold the same room. Any sequence of booking calls preserves this invariant. A concrete counterexample shows that the room screen can break it.
- **Expiry sweep** (`expiry.dfy`). The scheduled command files a `booking_expired` notification for each stay that is over and still holds an `occupied` room. It also files a `booking_ending_soon` notification for each stay that ends tomorrow. Each booking and type gets at most one notification, so rerunning the sweep is idempotent.
- **Notifications table** (`notices.dfy`). Rows start unread. Deleting a booking or a tenant cascades to their notifications.
- **Rooms and guests** (`rooms.dfy`, `guests.dfy`). Tenant-scoped CRUD (create, read, update, delete) with Laravel's validation rules written out as predicates. `isolation.dfy` shows that a row of another hotel is indistinguishable from a missing one.
- **User roles** (`user_roles.dfy`). Changing a role or deleting a user never touches the acting administrator. A real role change logs the user out of every session, and demoting an administrator detaches them from their hotel.
- **Manager assignment** (`assignment.dfy`). Attach and detach managers, toggle accounts on and off, and build the two cross-reference lists of the screen.
- **Booking dialog** (`booking_form.dfy`). The room picker of the bookings page and its submit check.

Each database table is a `Tables.Table<T>`: a map from positive ids to rows plus an auto-increment counter above every key. Laravel's `required` means "present and not blank once trimmed", with PHP's `trim` character set. `max:n` is a length bound.

## Model

| member | source | states |
|---|---|---|
| Bookings.Violations | app/Http/Controllers/BookingController.php:30-35 | A guest id and a room id are accepted exactly when the row exists in any hotel. The check-out is rejected exactly when it precedes the check-in. No other field is ever flagged. |
| Bookings.Create | app/Http/Controllers/BookingController.php:26-53 | Validation errors come first, then RoomUnavailable. The call succeeds iff the request is valid and the room is `available` in the caller's hotel. On success exactly one booking is added under a fresh id, with the caller's tenant. The booked room becomes `occupied`, and every other room and table is unchanged. |
| Bookings.Update | app/Http/Controllers/BookingController.php:58-90 | The tenant-scoped lookup comes before validation. RoomUnavailable is possible only when the room changes. The booking keeps its tenant and takes the request's fields. A kept room leaves every room unchanged. A changed room occupies the new room, makes the old room `available` whatever its hotel, and touches no other room. |
| Bookings.Destroy | app/Http/Controllers/BookingController.php:95-106 | Not found unless the booking is in the caller's hotel. Otherwise exactly that booking is removed. When its room belongs to the caller's hotel, the room becomes `available` and keeps its other fields; otherwise, and for every other room, nothing changes. The notifications that reference the booking disappear, and the rest keep their order and their multiplicity. |
| Bookings.UpdateAsWritten | app/Http/Controllers/BookingController.php:72-88 | The room-change branch runs on every call. The update succeeds iff the request is valid and the submitted room is `available` in the caller's hotel, including when it is the booking's own room. A success stores the request's fields under the booking's tenant, occupies the submitted room, makes the old room `available` when it differs, and changes nothing else. |
| Allocator.Acquirable | app/Http/Controllers/BookingController.php:37-40 | The room query finds a room exactly when it exists, belongs to the caller's hotel and is `available`; a missing id is never found. |
| Allocator.OccupyThenRelease | app/Http/Controllers/BookingController.php:53-104 | Booking a room takes it off the room query; the tenant-filtered release puts it back for its own hotel, and a release from another hotel leaves it occupied. |
| Allocator.SetStatus | app/Http/Controllers/BookingController.php:84-85 | A status write touches at most the row with that id, and only its status. A missing id changes nothing. |
| Allocator.Release | app/Http/Controllers/BookingController.php:102-104 | The release makes the room `available`, keeping its tenant, number, type and price, only when it is in the caller's hotel. A room of another hotel, and every other room, is left exactly as it was. |
| Allocator.ReleaseIdempotent | app/Http/Controllers/BookingController.php:102-104 | Releasing the same room twice is the same as releasing it once. |
| Occupancy.FreeRoomIsUnbooked | app/Http/Controllers/BookingController.php:37-40 | Under the occupancy invariant, no booking holds a room that is not `occupied`. This is why the status query is a sound availability test. |
| Occupancy.CreatePreserves | app/Http/Controllers/BookingController.php:37-53 | A successful create preserves the occupancy invariant. |
| Occupancy.UpdatePreserves | app/Http/Controllers/BookingController.php:72-90 | A successful update preserves the occupancy invariant, whether it keeps or moves the room. |
| Occupancy.UpdateAsWrittenPreserves | app/Http/Controllers/BookingController.php:72-90 | Under the invariant, a successful update as written equals the corrected update (the booking's own room is never acquirable, so it always moves), and it preserves the invariant. |
| Occupancy.DestroyPreserves | app/Http/Controllers/BookingController.php:99-106 | A successful delete preserves the occupancy invariant. |
| Occupancy.RunPreserves | app/Http/Controllers/BookingController.php:26-109 | Any sequence of create, update (as written or corrected) and delete calls, from any tenants and successful or not, preserves the occupancy invariant. |
| Occupancy.BookedRoomRejectsAnyDates | app/Http/Controllers/BookingController.php:37-46 | Once a room is booked, every further booking of it is refused as unavailable, whatever its dates. Occupancy is a flag, not a date range. |
| Occupancy.DestroyFreesRoom | app/Http/Controllers/BookingController.php:102-106 | Deleting a booking makes its room bookable again in the same hotel. |
| Occupancy.KeptRoomEditRefusedAsWritten | app/Http/Controllers/BookingController.php:72-82 | As written, under the invariant, an edit that keeps the booking's own room is always refused as unavailable. |
| Occupancy.KeptRoomEditAccepted | app/Http/Controllers/BookingController.php:72-90 | Comparing ids by value, the same edit succeeds, leaves all rooms unchanged and stores the request's fields. |
| Occupancy.RoomEditBreaksOccupancy | app/Http/Controllers/RoomController.php:79-87 | The room screen accepts setting a booked room to `available`. The invariant then fails, and a second booking of that room succeeds. |
| ExpiryCheck.Selected | app/Console/Commands/CheckExpiredBookings.php:35-63 | The expired query selects exactly the bookings with check-out before today whose room exists and is `occupied`; the ending-soon query selects exactly those with check-out tomorrow, whatever the room. |
| ExpiryCheck.ExistsIffCounted | app/Console/Commands/CheckExpiredBookings.php:43-47 | The "first notification with this booking id and type" lookup finds one iff the count of such rows is positive. |
| ExpiryCheck.Pass | app/Console/Commands/CheckExpiredBookings.php:41-58 | A pass only appends. Every appended row is the notification of a selected booking. Afterwards a selected booking that had no row of the type has exactly one, and every other count is unchanged. Duplicates in the enumeration file nothing twice. |
| ExpiryCheck.Sweep | app/Console/Commands/CheckExpiredBookings.php:30-85 | Only notifications change, and only by appending. A new row is unread and carries the booking's tenant, with the type and title of its kind. `booking_expired` means check-out before today and a room that is `occupied`. `booking_ending_soon` means check-out tomorrow. The bookings are enumerated completely, in any order. After the sweep, each due booking has exactly one row of its type if it had none before, and all other counts are unchanged. |
| ExpiryCheck.DueBookingNotified | app/Console/Commands/CheckExpiredBookings.php:35-77 | Every booking either query selects ends with a notification of that type, and a booking neither query selects gains none. |
| ExpiryCheck.SweepOrderIrrelevant | app/Console/Commands/CheckExpiredBookings.php:35-63 | Any two orders in which the database lists the bookings give the same state apart from notifications, and the same count of notifications per booking and type. |
| ExpiryCheck.PassStable | app/Console/Commands/CheckExpiredBookings.php:65-81 | A pass inserts nothing when every booking it selects already has a notification of its type. |
| ExpiryCheck.SweepIdempotent | app/Console/Commands/CheckExpiredBookings.php:30-85 | Running the command twice on the same day is the same as running it once. |
| ExpiryCheck.AtMostOnePerBookingAndType | app/Console/Commands/CheckExpiredBookings.php:43-47 | If every booking and type had at most one notification before the sweep, that still holds after it. |
| ExpiryCheck.NeverBothKinds | app/Console/Commands/CheckExpiredBookings.php:35-62 | One run never files both kinds for the same booking. |
| ExpiryCheck.ExpiredOnceScenario | app/Console/Commands/CheckExpiredBookings.php:32-57 | Take a stay that ended on day 12 and still holds its room. On day 13 the sweep files exactly one `booking_expired` row, and on day 14 it files nothing more. |
| Notices.Create | database/migrations/2026_01_20_221316_create_notifications_table.php:21 | A new row starts unread; its tenant, type, title and booking are the ones given. |
| Notices.DropBooking | database/migrations/2026_01_20_221316_create_notifications_table.php:25 | The cascade on `booking_id` keeps exactly the rows that do not reference the deleted booking. Each survivor keeps its multiplicity and the rows keep their order. |
| Notices.DropTenant | database/migrations/2026_01_20_221316_create_notifications_table.php:24 | The cascade on `tenant_id` keeps exactly the rows of other tenants. Each survivor keeps its multiplicity and the rows keep their order. |
| Rooms.ParseStatusInverse | app/Http/Controllers/RoomController.php:40 | The `in:` rule accepts exactly the three status names, each read as its own status. |
| Rooms.Violations | app/Http/Controllers/RoomController.php:36-42 | Each field is flagged exactly when its rule fails. Room number: required, at most 50 characters. Type: required, at most 100. Price: not negative. Status: one of the three names. |
| Rooms.Index | app/Http/Controllers/RoomController.php:18-20 | The listing holds exactly the caller's rooms, unchanged. |
| Rooms.Create | app/Http/Controllers/RoomController.php:31-48 | The call succeeds iff the input is valid, and validation errors are reported by field. On success one room is added under a fresh id, with the caller's tenant and the input's fields. Every other row and table is unchanged. |
| Rooms.CreateThenShow | app/Http/Controllers/RoomController.php:45-62 | A created room is at once shown to its hotel under the fresh id, exactly as submitted. |
| Rooms.IndexAgreesWithShow | app/Http/Controllers/RoomController.php:18-62 | The listing and the single-room view agree on every id: listed iff shown, with the same row. |
| Rooms.CreateIsolated | app/Http/Controllers/RoomController.php:18-48 | Another hotel's create leaves this hotel's listing unchanged. |
| Rooms.Show | app/Http/Controllers/RoomController.php:57-62 | The stored room if it is in the caller's hotel, else not found. |
| Rooms.Update | app/Http/Controllers/RoomController.php:70-87 | The scoped lookup comes before validation. The room keeps its tenant and takes the input's fields, including any status. Nothing else changes. |
| Rooms.Destroy | app/Http/Controllers/RoomController.php:96-104 | Exactly the caller's room with that id is removed. Otherwise the result is not found. |
| Guests.Violations | app/Http/Controllers/GuestController.php:24-31 | Each field is flagged exactly when its rule fails. First and last name: required, at most 255 characters. Email: required, valid syntax, at most 255. Phone: required, at most 20. Check-out: flagged exactly when it is given and the check-in is absent or later. |
| Guests.CheckOutRule | app/Http/Controllers/GuestController.php:29-30 | The `after_or_equal:check_in_date` rule fails exactly when a check-out is given and either no check-in is given or the check-out precedes it. |
| Guests.Index | app/Http/Controllers/GuestController.php:16 | The listing holds exactly the caller's guests, unchanged. |
| Guests.Create | app/Http/Controllers/GuestController.php:20-35 | The call succeeds iff the input is valid. On success one guest is added with the caller's tenant and the input's fields. Every other row and table is unchanged. |
| Guests.CreateThenShow | app/Http/Controllers/GuestController.php:33-47 | A created guest is at once shown to its hotel under the fresh id, exactly as submitted. |
| Guests.IndexAgreesWithShow | app/Http/Controllers/GuestController.php:16-47 | The listing and the single-guest view agree on every id: listed iff shown, with the same row. |
| Guests.CreateIsolated | app/Http/Controllers/GuestController.php:16-35 | Another hotel's create leaves this hotel's listing unchanged. |
| Guests.Show | app/Http/Controllers/GuestController.php:42-48 | The stored guest if it is in the caller's hotel, else not found. |
| Guests.Update | app/Http/Controllers/GuestController.php:51-67 | The scoped lookup comes before validation; validation errors are reported by field. The guest keeps its tenant and takes the input's fields, whose stay dates are ordered. Nothing else changes. |
| Guests.Destroy | app/Http/Controllers/GuestController.php:74-80 | Exactly the caller's guest with that id is removed. Otherwise the result is not found. |
| Isolation.ForeignRoomNotFound | app/Http/Controllers/RoomController.php:61-62 | For a room of another hotel, show, edit and delete answer not-found, and show answers exactly as if the room did not exist. |
| Isolation.ForeignGuestNotFound | app/Http/Controllers/GuestController.php:47 | For a guest of another hotel, show, edit and delete answer not-found, exactly as if the guest did not exist. |
| Isolation.ForeignBookingNotFound | app/Http/Controllers/BookingController.php:62-63 | A booking of another hotel can be neither edited nor deleted. The not-found answer comes before validation. |
| Isolation.ForeignRoomNotBookable | app/Http/Controllers/BookingController.php:37-40 | A room of another hotel can never be booked, whatever its status. |
| Isolation.ForeignGuestBookable | app/Http/Controllers/BookingController.php:31 | A hotel can book its own free room for a guest of another hotel: the rule checks existence only. |
| UserRoles.ParseRoleInverse | app/Http/Controllers/UserRoleController.php:45-47 | The role rule accepts exactly `admin` and `manager`, each read as its own role. |
| UserRoles.Index | app/Http/Controllers/UserRoleController.php:19 | The listing holds every user except the one asking, unchanged. |
| UserRoles.IndexListsDeletable | app/Http/Controllers/UserRoleController.php:19-95 | The listing shows exactly the users the actor may delete: every existing user except their own account. |
| UserRoles.DropSessions | app/Http/Controllers/UserRoleController.php:76-78 | The sessions that remain are exactly those not owned by the user, unchanged. |
| UserRoles.UpdateRole | app/Http/Controllers/UserRoleController.php:42-78 | Errors come in this order: invalid role, own role, not found. Asking for the current role changes nothing. A real change sets the role, clears the hotel when an administrator is demoted and keeps it when a manager is promoted, and leaves every other user unchanged. It also removes exactly that user's sessions. |
| UserRoles.Destroy | app/Http/Controllers/UserRoleController.php:87-102 | Own account is checked first, then not found. On success exactly that user and their sessions go, and everything else stays. |
| UserRoles.ActorUntouched | app/Http/Controllers/UserRoleController.php:50-93 | Whatever the request, the acting administrator's row and sessions survive both operations. |
| Assignment.Assign | app/Http/Controllers/AssignManagerController.php:54-64 | A missing tenant is a validation error. Otherwise the call succeeds iff the user exists and is a manager. Exactly that user's tenant is set, and nothing else changes. |
| Assignment.Unassign | app/Http/Controllers/AssignManagerController.php:69-74 | The call succeeds iff the user is a manager. It clears exactly that user's tenant and changes nothing else. |
| Assignment.UnassignUndoesAssign | app/Http/Controllers/AssignManagerController.php:54-74 | Assigning and then unassigning a manager ends where a plain unassign ends, and assigning the same hotel twice is the same as once. |
| Assignment.ToggleActive | app/Http/Controllers/AssignManagerController.php:80-84 | Any existing user's active flag flips. Nothing else changes. |
| Assignment.ToggleTwiceRestores | app/Http/Controllers/AssignManagerController.php:80-84 | Toggling twice restores the database exactly. |
| Assignment.Managers | app/Http/Controllers/AssignManagerController.php:15 | The managers are exactly the users with the manager role, in listing order. |
| Assignment.HotelOf | app/Http/Controllers/AssignManagerController.php:21-22 | The hotel shown for a manager is the first hotel with the manager's tenant id. There is none exactly when the manager has no tenant or no hotel matches. |
| Assignment.ManagerOf | app/Http/Controllers/AssignManagerController.php:35-36 | The manager shown for a hotel is the first manager with the hotel's tenant id. There is none exactly when no manager matches. |
| Assignment.ManagerRows | app/Http/Controllers/AssignManagerController.php:21-31 | There is one row per manager, in order, each paired with that manager's hotel. |
| Assignment.HotelRows | app/Http/Controllers/AssignManagerController.php:35-46 | There is one row per hotel, in order, each paired with that hotel's manager. |
| Assignment.AssignShownOnScreen | app/Http/Controllers/AssignManagerController.php:21-64 | After an assignment the screen shows the manager with a hotel of the chosen tenant, when one is listed; after an unassignment it shows none. |
| Assignment.RowsAgree | app/Http/Controllers/AssignManagerController.php:21-46 | When hotels and managers' tenants are distinct, a manager shown with a hotel is the manager shown for that hotel. |
| Assignment.ScreenRowsAgree | app/Http/Controllers/AssignManagerController.php:21-46 | The same agreement on the two lists the screen shows: every manager row naming a hotel has a hotel row that names that manager. |
| BookingForm.AvailableRooms | resources/js/pages/bookings/index.tsx:74-103 | Exactly the listed rooms that pass the picker's test are offered, in listing order. All of them are `available`. |
| BookingForm.BookedRoomNotOffered | resources/js/pages/bookings/index.tsx:84-90 | A room held by another booking is never offered, except the room already chosen in the edit dialog. |
| BookingForm.ChosenRoomOfferedWhenEditing | resources/js/pages/bookings/index.tsx:77-82 | When editing, the chosen room is offered whenever it is listed as `available`. |
| BookingForm.BusyGuestOfferedNothing | resources/js/pages/bookings/index.tsx:92-101 | A guest who already has another booking starting that day is offered no room when adding. When editing, only the chosen room is offered. |
| BookingForm.SubmitAllowed | resources/js/pages/bookings/index.tsx:145-152 | Submission is allowed iff a room is chosen and the first listed room with that id is `available`. |
| BookingForm.OfferedRoomPassesSubmit | resources/js/pages/bookings/index.tsx:145-152 | With distinct room ids, any room the picker offers passes the submit check. |

## Left out

- Rendering, redirects, flash messages and the HTTP layer are left out. An action's outcome is its `Result`; the page it renders is not modelled.
- Authentication, middleware and the inactive-account check are left out. The caller of a hotel screen is given as a plain tenant id.
- Callers without a tenant are not modelled. Laravel compiles the tenant filter for such a caller to `tenant_id IS NULL`, so a manager detached from their hotel, or a demoted administrator, would match only rows whose `tenant_id` is NULL; whether such rows can be created depends on the rooms, guests and bookings migrations, which are not part of this model. The model's hotel-screen caller always has a tenant id.
- Concurrency and transactions are left out. Each call is atomic in the model, while the source's read-then-write room check can race.
- The clock is a parameter. `Carbon::today()` is an integer day `today`, and tomorrow is `today + 1`.
- The order in which the sweep's queries return bookings is a parameter `order`, required to list exactly the bookings. The same order serves both passes, and `ExpiryCheck.SweepOrderIrrelevant` shows it cannot change the notifications filed per booking and type.
- ExpiryCheck.Sweep: the notification `message` text, the console output and the `created_at`/`updated_at` timestamps are left out.
- ExpiryCheck.Sweep: the ending-soon message reads the booking's room; for a booking whose room is gone that read fails and the command stops, while the model files the row and carries on.
- ExpiryCheck.Sweep: dates are whole days compared as numbers. The query compares the stored date with a date-time value, which on a database storing dates as text can also count a stay ending today as expired.
- The listings' `orderBy('created_at')` is not modelled, so the listings are maps.
- Prices are integers, and the decimal column and the `numeric` rule's parsing are not modelled.
- Guests.Violations: the syntax test of Laravel's `email` rule is a parameter `isEmail`.
- Guests.Violations, Guests.CheckOutRule, Guests.Create, Guests.Update: a check-out given without a check-in is refused, which follows one reading of Laravel's `after_or_equal` with a null compared value (the framework is not part of this model, and releases differ); under the other reading such a check-out is accepted.
- Guests.CheckOutRule: its case of an absent check-in rests on the reading of `after_or_equal` stated in the line above.
- Guests.Update: what it accepts for an absent check-in rests on the same reading of `after_or_equal`.
- Request fields are typed. A missing or non-date value for a required date field, or a non-integer id, cannot be expressed.
- The request-trimming middleware is not modelled. Strings are stored as given, and blankness is judged after trimming.
- Rooms.Destroy and Guests.Destroy: foreign-key effects on the bookings table are not modelled, because the bookings migration is not part of this model. Whether deleting a booked room is refused, cascades or leaves a dangling booking is therefore not stated.
- Deleting a tenant is not an operation of the core. Only its cascade to notifications (`Notices.DropTenant`) is modelled.
- The validation rule `exists:tenants,tenant_id` and the manager check of assignment are modelled as lookups in the state. The administrator screens sit behind authentication only, with no role check; who may call them is not modelled.
- Bookings.Violations: the guest rule checks existence in any hotel, not ownership by the caller's hotel (`Isolation.ForeignGuestBookable`).
- The bookings page's own lists, the notifications page and the dashboard are read-only views and are left out, apart from the booking dialog.

## Findings

| source | as written | input that shows it | evidently intended | confidence | as-written member | corrected member |
|---|---|---|---|---|---|---|
| app/Http/Controllers/BookingController.php:72 | `$booking->room_id !== $validated['room_id']` compares the stored integer id with the submitted string id. Strict inequality of different types is always true, so every edit takes the room-change branch. | Edit booking 1, which holds occupied room 1, and keep room 1. The branch looks for room 1 among the `available` rooms, finds nothing and refuses with "Selected room is not available." | Compare the id values, so that keeping the room skips the branch and the edit is stored. | medium (it depends on the request carrying the id as a string, which is how form input arrives); not executed | Bookings.UpdateAsWritten, Occupancy.KeptRoomEditRefusedAsWritten | Bookings.Update, Occupancy.KeptRoomEditAccepted |

=== FILE: allocator.dfy ===
/** The room allocator: the room's status column is the only lock a booking
    takes. A room can be acquired when it belongs to the caller's hotel and is
    `available`; booking it flips it to `occupied`; cancelling flips it back. */
module Allocator {
  import opened Tables
  import opened Domain

  /** The room query of the booking controller: this id, this tenant,
      status `available`. */
  function Acquirable(rooms: Table<Room>, tenant: Id, id: Id): (ok: bool)
    ensures ok ==> id in rooms.rows && rooms.rows[id].tenant == tenant && rooms.rows[id].status == Available
    ensures id !in rooms.rows ==> !ok
    ensures id in rooms.rows && rooms.rows[id].tenant == tenant && rooms.rows[id].status == Available ==> ok
  {
    id in rooms.rows && rooms.rows[id].tenant == tenant && rooms.rows[id].status == Available
  }

  /** `UPDATE rooms SET status = st WHERE room_id = id`: touches at most that
      row, and only its status. */
  function SetStatus(rooms: Table<Room>, id: Id, st: RoomStatus): (r: Table<Room>)
    ensures r.rows.Keys == rooms.rows.Keys
    ensures id in rooms.rows ==> r.rows[id] == rooms.rows[id].(status := st)
    ensures forall k :: k in rooms.rows && k != id ==> r.rows[k] == rooms.rows[k]
    ensures id !in rooms.rows ==> r == rooms
  {
    if id in rooms.rows then Put(rooms, id, rooms.rows[id].(status := st)) else rooms
  }

  function Occupy(rooms: Table<Room>, id: Id): Table<Room> {
    SetStatus(rooms, id, Occupied)
  }

  /** The tenant-filtered release of a booking's cancellation: a room of
      another hotel is left as it is. */
  function Release(rooms: Table<Room>, tenant: Id, id: Id): (r: Table<Room>)
    ensures r.rows.Keys == rooms.rows.Keys
    ensures forall k :: k in rooms.rows && k != id ==> r.rows[k] == rooms.rows[k]
    ensures id in rooms.rows && rooms.rows[id].tenant == tenant ==> r.rows[id] == rooms.rows[id].(status := Available)
    ensures id in rooms.rows && rooms.rows[id].tenant != tenant ==> r.rows[id] == rooms.rows[id]
  {
    if id in rooms.rows && rooms.rows[id].tenant == tenant then SetStatus(rooms, id, Available)
    else rooms
  }

  /** Releasing is idempotent: a second release of the same room in the same
      hotel changes nothing. */
  lemma ReleaseIdempotent(rooms: Table<Room>, tenant: Id, id: Id)
    ensures Release(Release(rooms, tenant, id), tenant, id) == Release(rooms, tenant, id)
  {
    var once := Release(rooms, tenant, id);
    if id in rooms.rows && rooms.rows[id].tenant == tenant {
      assert once.rows[id] == rooms.rows[id].(status := Available);
      assert once.rows[id].(status := Available) == once.rows[id];
      assert Release(once, tenant, id).rows == once.rows;
    }
  }

  /** Booking a room takes it off the query, and the tenant-filtered release
      puts it back for the same hotel only. */
  lemma OccupyThenRelease(rooms: Table<Room>, tenant: Id, other: Id, id: Id)
    requires id in rooms.rows && rooms.rows[id].tenant == tenant && tenant != other
    ensures !Acquirable(Occupy(rooms, id), tenant, id)
    ensures Acquirable(Release(Occupy(rooms, id), tenant, id), tenant, id)
    ensures Release(Occupy(rooms, id), other, id) == Occupy(rooms, id)
  {
  }
}

=== FILE: assignment.dfy ===
/** The manager-assignment screen of the administrator: attach a manager to
    a hotel, detach them, switch any account on or off, and the two lists
    that pair managers with hotels. */
module Assignment {
  import opened Base
  import opened Tables
  import opened Domain

  /** User `id` exists and has the manager role. */
  predicate IsManager(s: State, id: Id) {
    id in s.users.rows && s.users.rows[id].role == Manager
  }

  /** Attach manager `id` to hotel `tenant`. The tenant must exist (a
      validation error otherwise); then only a manager can be found. */
  function Assign(s: State, id: Id, tenant: Id): (r: Result<State>)
    ensures tenant !in s.tenants ==> r == Err(Invalid({TenantIdField}))
    ensures tenant in s.tenants && !IsManager(s, id) ==> r == Err(NotFound)
    ensures r.Ok? <==> tenant in s.tenants && IsManager(s, id)
    ensures r.Ok? ==>
      && r.value.users.rows.Keys == s.users.rows.Keys
      && r.value.users.rows[id].tenant == Some(tenant)
      && r.value.users.rows[id].(tenant := s.users.rows[id].tenant) == s.users.rows[id]
      && (forall k :: k in s.users.rows && k != id ==> r.value.users.rows[k] == s.users.rows[k])
      && r.value.(users := s.users) == s
  {
    if tenant !in s.tenants then Err(Invalid({TenantIdField}))
    else if !IsManager(s, id) then Err(NotFound)
    else Ok(s.(users := Put(s.users, id, s.users.rows[id].(tenant := Some(tenant)))))
  }

  /** Detach manager `id` from their hotel. */
  function Unassign(s: State, id: Id): (r: Result<State>)
    ensures r.Ok? <==> IsManager(s, id)
    ensures r.Err? ==> r.error == NotFound
    ensures r.Ok? ==>
      && r.value.users.rows.Keys == s.users.rows.Keys
      && r.value.users.rows[id].tenant.None?
      && r.value.users.rows[id].(tenant := s.users.rows[id].tenant) == s.users.rows[id]
      && (forall k :: k in s.users.rows && k != id ==> r.value.users.rows[k] == s.users.rows[k])
      && r.value.(users := s.users) == s
  {
    if !IsManager(s, id) then Err(NotFound)
    else Ok(s.(users := Put(s.users, id, s.users.rows[id].(tenant := None))))
  }

  /** Detaching undoes attaching: whatever hotel the manager had before,
      assign-then-unassign ends where a plain unassign ends. Assigning the
      same hotel twice is the same as once. */
  lemma UnassignUndoesAssign(s: State, id: Id, tenant: Id)
    requires tenant in s.tenants && IsManager(s, id)
    ensures Assign(s, id, tenant).Ok?
    ensures Unassign(Assign(s, id, tenant).value, id) == Unassign(s, id)
    ensures Assign(Assign(s, id, tenant).value, id, tenant) == Assign(s, id, tenant)
  {
    var a := Assign(s, id, tenant).value;
    assert Unassign(a, id).value.users.rows == Unassign(s, id).value.users.rows;
    assert Assign(a, id, tenant).value.users.rows == a.users.rows;
  }

  /** Switch account `id` on or off; any user, of either role. */
  function ToggleActive(s: State, id: Id): (r: Result<State>)
    ensures r.Ok? <==> id in s.users.rows
    ensures r.Err? ==> r.error == NotFound
    ensures r.Ok? ==>
      && r.value.users.rows.Keys == s.users.rows.Keys
      && r.value.users.rows[id].isActive == !s.users.rows[id].isActive
      && r.value.users.rows[id].(isActive := s.users.rows[id].isActive) == s.users.rows[id]
      && (forall k :: k in s.users.rows && k != id ==> r.value.users.rows[k] == s.users.rows[k])
      && r.value.(users := s.users) == s
  {
    if id !in s.users.rows then Err(NotFound)
    else
      var u := s.users.rows[id];
      Ok(s.(users := Put(s.users, id, u.(isActive := !u.isActive))))
  }

  /** Toggling twice restores the database exactly. */
  lemma ToggleTwiceRestores(s: State, id: Id)
    requires id in s.users.rows
    ensures ToggleActive(s, id).Ok?
    ensures ToggleActive(ToggleActive(s, id).value, id) == Ok(s)
  {
    var t := ToggleActive(ToggleActive(s, id).value, id).value;
    assert t.users.rows == s.users.rows;
  }

  /** A hotel as listed by the screen. */
  datatype Hotel = Hotel(tenant: Id, name: string)

  /** A user together with their id. */
  datatype Member = Member(id: Id, user: User)

  /** The hotel shown next to a manager: the first hotel with the manager's
      tenant id, or none when the manager has no tenant or no hotel has it. */
  function HotelOf(hotels: seq<Hotel>, m: User): (r: Option<Hotel>)
    ensures r.Some? ==> r.value in hotels && m.tenant == Some(r.value.tenant)
    ensures r.None? <==> m.tenant.None? || forall h :: h in hotels ==> h.tenant != m.tenant.value
    ensures r.Some? ==> exists i :: 0 <= i < |hotels| && hotels[i] == r.value
                                    && forall j :: 0 <= j < i ==> hotels[j].tenant != r.value.tenant
  {
    match m.tenant
    case None => None
    case Some(t) =>
      match FindFirst(hotels, (h: Hotel) => h.tenant == t)
      case None => None
      case Some(i) => Some(hotels[i])
  }

  /** The manager shown next to a hotel: the first manager whose tenant id
      is the hotel's, or none. */
  function ManagerOf(managers: seq<Member>, hotel: Hotel): (r: Option<Member>)
    ensures r.Some? ==> r.value in managers && r.value.user.tenant == Some(hotel.tenant)
    ensures r.None? <==> forall m :: m in managers ==> m.user.tenant != Some(hotel.tenant)
    ensures r.Some? ==> exists i :: 0 <= i < |managers| && managers[i] == r.value
                                    && forall j :: 0 <= j < i ==> managers[j].user.tenant != Some(hotel.tenant)
  {
    match FindFirst(managers, (m: Member) => m.user.tenant == Some(hotel.tenant))
    case None => None
    case Some(i) => Some(managers[i])
  }

  /** The managers among all users, in the order they were listed. */
  function Managers(users: seq<Member>): (r: seq<Member>)
    ensures forall m :: m in r <==> m in users && m.user.role == Manager
    ensures IsSubsequence(r, users)
  {
    Filter(users, (m: Member) => m.user.role == Manager)
  }

  /** The two lists of the screen: each manager with their hotel, and each
      hotel with its manager. */
  function ManagerRows(users: seq<Member>, hotels: seq<Hotel>): (r: seq<(Member, Option<Hotel>)>)
    ensures |r| == |Managers(users)|
    ensures forall i :: 0 <= i < |r| ==> r[i].0 == Managers(users)[i] && r[i].1 == HotelOf(hotels, r[i].0.user)
  {
    var ms := Managers(users);
    seq(|ms|, i requires 0 <= i < |ms| => (ms[i], HotelOf(hotels, ms[i].user)))
  }

  function HotelRows(users: seq<Member>, hotels: seq<Hotel>): (r: seq<(Hotel, Option<Member>)>)
    ensures |r| == |hotels|
    ensures forall i :: 0 <= i < |r| ==> r[i].0 == hotels[i] && r[i].1 == ManagerOf(Managers(users), hotels[i])
  {
    var ms := Managers(users);
    seq(|hotels|, i requires 0 <= i < |hotels| => (hotels[i], ManagerOf(ms, hotels[i])))
  }

  /** After an assignment the screen lists the manager with a hotel of the
      chosen tenant (when one is listed); after an unassignment, with none. */
  lemma AssignShownOnScreen(s: State, id: Id, tenant: Id, hotels: seq<Hotel>)
    requires tenant in s.tenants && IsManager(s, id)
    requires exists i :: 0 <= i < |hotels| && hotels[i].tenant == tenant
    ensures var u := Assign(s, id, tenant).value.users.rows[id];
            HotelOf(hotels, u).Some? && HotelOf(hotels, u).value.tenant == tenant
    ensures HotelOf(hotels, Unassign(s, id).value.users.rows[id]).None?
  {
    var u := Assign(s, id, tenant).value.users.rows[id];
    var i :| 0 <= i < |hotels| && hotels[i].tenant == tenant;
    assert hotels[i] in hotels;
  }

  /** When hotels have distinct tenant ids and managers distinct hotels, the
      two lists agree: a manager shown with a hotel is the manager shown for
      that hotel. */
  lemma RowsAgree(users: seq<Member>, hotels: seq<Hotel>, m: Member)
    requires forall i, j :: 0 <= i < j < |hotels| ==> hotels[i].tenant != hotels[j].tenant
    requires forall a, b :: a in Managers(users) && b in Managers(users) && a != b && a.user.tenant.Some?
               ==> a.user.tenant != b.user.tenant
    requires m in Managers(users)
    ensures HotelOf(hotels, m.user).Some? ==> ManagerOf(Managers(users), HotelOf(hotels, m.user).value) == Some(m)
  {
    var h := HotelOf(hotels, m.user);
    if h.Some? {
      var r := ManagerOf(Managers(users), h.value);
      assert r.Some?;
    }
  }

  /** The same agreement read off the two lists the screen shows: a manager
      row that names a hotel has a matching hotel row naming that manager. */
  lemma ScreenRowsAgree(users: seq<Member>, hotels: seq<Hotel>, i: nat)
    requires forall a, b :: 0 <= a < b < |hotels| ==> hotels[a].tenant != hotels[b].tenant
    requires forall a, b :: a in Managers(users) && b in Managers(users) && a != b && a.user.tenant.Some?
               ==> a.user.tenant != b.user.tenant
    requires i < |ManagerRows(users, hotels)| && ManagerRows(users, hotels)[i].1.Some?
    ensures var row := ManagerRows(users, hotels)[i];
            exists j :: 0 <= j < |HotelRows(users, hotels)| && HotelRows(users, hotels)[j] == (row.1.value, Some(row.0))
  {
    var row := ManagerRows(users, hotels)[i];
    var m := Managers(users)[i];
    assert m in Managers(users);
    RowsAgree(users, hotels, m);
    var h := row.1.value;
    var j :| 0 <= j < |hotels| && hotels[j] == h;
    assert HotelRows(users, hotels)[j] == (h, Some(row.0));
  }
}

=== FILE: base.dfy ===
/** Small generic building blocks: an optional value, and the two list
    operations the application leans on everywhere — keeping the elements
    that satisfy a test (a query's `where`, a JavaScript `filter`, a cascading
    delete) and finding the first element that satisfies one (`first()`,
    `firstWhere`, JavaScript `find`). */
module Base {

  datatype Option<T> = None | Some(value: T)

  /** `a` can be obtained from `b` by deleting elements: same order, no
      element invented. */
  predicate IsSubsequence<T(==)>(a: seq<T>, b: seq<T>)
    decreases |b|
  {
    if |b| == 0 then |a| == 0
    else
      (0 < |a| && a[0] == b[0] && IsSubsequence(a[1..], b[1..]))
      || IsSubsequence(a, b[1..])
  }

  /** The elements of `xs` that pass `keep`, in their original order. */
  function Filter<T(==,!new)>(xs: seq<T>, keep: T -> bool): (r: seq<T>)
    ensures forall x :: multiset(r)[x] == if keep(x) then multiset(xs)[x] else 0
    ensures forall x :: x in r <==> x in xs && keep(x)
    ensures IsSubsequence(r, xs)
    ensures |r| <= |xs|
    decreases |xs|
  {
    if |xs| == 0 then []
    else
      var rest := Filter(xs[1..], keep);
      assert xs == [xs[0]] + xs[1..];
      assert multiset(xs) == multiset{xs[0]} + multiset(xs[1..]);
      if keep(xs[0]) then
        assert ([xs[0]] + rest)[1..] == rest;
        [xs[0]] + rest
      else rest
  }

  /** The position of the first element that passes `p`, if any. */
  function FindFirst<T>(xs: seq<T>, p: T -> bool): (r: Option<nat>)
    ensures r.Some? ==> r.value < |xs| && p(xs[r.value])
    ensures r.Some? ==> forall j :: 0 <= j < r.value ==> !p(xs[j])
    ensures r.None? <==> forall j :: 0 <= j < |xs| ==> !p(xs[j])
    decreases |xs|
  {
    if |xs| == 0 then None
    else if p(xs[0]) then Some(0)
    else
      match FindFirst(xs[1..], p)
      case None => None
      case Some(i) => Some(i + 1)
  }
}

=== FILE: booking_form.dfy ===
/** The booking dialog of the bookings page: which rooms it offers in its
    room picker, and the check it makes before submitting. Both run in the
    browser on the lists the page was rendered with. */
module BookingForm {
  import opened Base
  import opened Tables
  import opened Domain

  /** What the page knows of a room and of a booking. Ids are compared via
      their string forms on the page, which for numbers is comparing the
      numbers. */
  datatype RoomItem = RoomItem(id: Id, status: RoomStatus)
  datatype BookingItem = BookingItem(id: Id, guest: Id, room: Id, checkIn: Day)

  /** The dialog's fields; an empty field is `None`. */
  datatype Form = Form(guest: Option<Id>, room: Option<Id>, checkIn: Option<Day>)

  /** Adding a new booking, or editing an existing one. */
  datatype Mode = Adding | Editing(booking: Id)

  /** Booking `b` is not the one being edited. */
  predicate Other(b: BookingItem, mode: Mode) {
    !(mode.Editing? && b.id == mode.booking)
  }

  /** Some other booking already holds room `r`. */
  predicate BookedElsewhere(r: RoomItem, bookings: seq<BookingItem>, mode: Mode) {
    exists i :: 0 <= i < |bookings| && bookings[i].room == r.id && Other(bookings[i], mode)
  }

  /** The chosen guest already has another booking starting on the chosen
      check-in day. */
  predicate GuestBusy(bookings: seq<BookingItem>, form: Form, mode: Mode) {
    form.guest.Some? && form.checkIn.Some?
    && exists i :: 0 <= i < |bookings| && Other(bookings[i], mode)
                   && bookings[i].guest == form.guest.value && bookings[i].checkIn == form.checkIn.value
  }

  /** The test applied to each room: it must be available; while editing,
      the room already in the form is then offered outright; otherwise it
      must not be held by another booking, and the guest must not be busy. */
  predicate Offered(r: RoomItem, bookings: seq<BookingItem>, form: Form, mode: Mode) {
    r.status == Available
    && ((mode.Editing? && form.room == Some(r.id))
        || (!BookedElsewhere(r, bookings, mode) && !GuestBusy(bookings, form, mode)))
  }

  /** The rooms offered by the picker. */
  function AvailableRooms(rooms: seq<RoomItem>, bookings: seq<BookingItem>, form: Form, mode: Mode): (r: seq<RoomItem>)
    ensures forall x :: x in r ==> x in rooms && x.status == Available
    ensures forall x :: x in r <==> x in rooms && Offered(x, bookings, form, mode)
    ensures IsSubsequence(r, rooms)
  {
    Filter(rooms, (x: RoomItem) => Offered(x, bookings, form, mode))
  }

  /** A room held by another booking is not offered, unless it is the room
      already chosen in the edit dialog. */
  lemma BookedRoomNotOffered(rooms: seq<RoomItem>, bookings: seq<BookingItem>, form: Form, mode: Mode, i: nat, x: RoomItem)
    requires i < |bookings| && Other(bookings[i], mode) && bookings[i].room == x.id
    requires !(mode.Editing? && form.room == Some(x.id))
    ensures x !in AvailableRooms(rooms, bookings, form, mode)
  {
    assert BookedElsewhere(x, bookings, mode);
  }

  /** While editing, the chosen room is offered whenever it is listed as
      available, whatever the bookings say. */
  lemma ChosenRoomOfferedWhenEditing(rooms: seq<RoomItem>, bookings: seq<BookingItem>, form: Form, id: Id, x: RoomItem)
    requires x in rooms && x.status == Available && form.room == Some(x.id)
    ensures x in AvailableRooms(rooms, bookings, form, Editing(id))
  {
  }

  /** A guest who already has another booking on the chosen check-in day is
      offered no room, except the room already chosen in the edit dialog. */
  lemma BusyGuestOfferedNothing(rooms: seq<RoomItem>, bookings: seq<BookingItem>, form: Form, mode: Mode, i: nat)
    requires form.guest.Some? && form.checkIn.Some?
    requires i < |bookings| && Other(bookings[i], mode)
    requires bookings[i].guest == form.guest.value && bookings[i].checkIn == form.checkIn.value
    ensures forall x :: x in AvailableRooms(rooms, bookings, form, mode) ==> mode.Editing? && form.room == Some(x.id)
    ensures mode.Adding? ==> AvailableRooms(rooms, bookings, form, mode) == []
  {
    assert GuestBusy(bookings, form, mode);
  }

  /** The submit check: the first listed room with the chosen id must exist
      and be available. */
  function SubmitAllowed(rooms: seq<RoomItem>, form: Form): (ok: bool)
    ensures ok <==> form.room.Some? &&
                      exists i :: 0 <= i < |rooms| && rooms[i].id == form.room.value
                                  && rooms[i].status == Available
                                  && forall j :: 0 <= j < i ==> rooms[j].id != form.room.value
  {
    match form.room
    case None => false
    case Some(id) =>
      match FindFirst(rooms, (x: RoomItem) => x.id == id)
      case None => false
      case Some(i) => rooms[i].status == Available
  }

  /** With distinct room ids, any room the picker offers passes the submit
      check once chosen. */
  lemma OfferedRoomPassesSubmit(rooms: seq<RoomItem>, bookings: seq<BookingItem>, form: Form, mode: Mode, x: RoomItem)
    requires forall i, j :: 0 <= i < j < |rooms| ==> rooms[i].id != rooms[j].id
    requires x in AvailableRooms(rooms, bookings, form, mode)
    ensures SubmitAllowed(rooms, form.(room := Some(x.id)))
  {
    var i :| 0 <= i < |rooms| && rooms[i] == x;
    assert forall j :: 0 <= j < i ==> rooms[j].id != x.id;
  }
}

=== FILE: bookings.dfy ===
/** The booking lifecycle of the booking controller: create, update and
    delete a booking inside the caller's hotel, keeping the room status
    column in step with the bookings that hold rooms. */
module Bookings {
  import opened Base
  import opened Tables
  import opened Domain
  import opened Allocator
  import Notices

  /** The form fields of a create or update request. */
  datatype Request = Request(guest: Id, room: Id, checkIn: Day, checkOut: Day)

  /** The validation rules shared by create and update. Guest and room need
      only exist somewhere in the database: the rules do not look at the
      tenant. */
  function Violations(s: State, req: Request): (fs: set<Field>)
    ensures GuestIdField in fs <==> req.guest !in s.guests.rows
    ensures RoomIdField in fs <==> req.room !in s.rooms.rows
    ensures CheckOutField in fs <==> req.checkOut < req.checkIn
    ensures fs <= {GuestIdField, RoomIdField, CheckOutField}
  {
    var fs := Check({}, req.guest in s.guests.rows, GuestIdField);
    var fs := Check(fs, req.room in s.rooms.rows, RoomIdField);
    Check(fs, req.checkIn <= req.checkOut, CheckOutField)
  }

  /** The booking a request describes, owned by `tenant`. */
  function FromRequest(tenant: Id, req: Request): Booking {
    Booking(tenant, req.guest, req.room, req.checkIn, req.checkOut)
  }

  /** The booking lookup of update and destroy, restricted to the caller's
      hotel. */
  predicate Owned(s: State, caller: Id, id: Id) {
    id in s.bookings.rows && s.bookings.rows[id].tenant == caller
  }

  /** Create a booking. Validation errors come first, then the room must be
      free in the caller's hotel; on success the new booking is the only row
      added and its room the only room changed, to `occupied`. */
  function Create(s: State, caller: Id, req: Request): (r: Result<State>)
    ensures Violations(s, req) != {} ==> r == Err(Invalid(Violations(s, req)))
    ensures Violations(s, req) == {} && !Acquirable(s.rooms, caller, req.room) ==> r == Err(RoomUnavailable)
    ensures r.Ok? <==> Violations(s, req) == {} && Acquirable(s.rooms, caller, req.room)
    ensures r.Ok? ==>
      var key := NextKey(s.bookings);
      && key !in s.bookings.rows
      && r.value.bookings.rows.Keys == s.bookings.rows.Keys + {key}
      && r.value.bookings.rows[key] == Booking(caller, req.guest, req.room, req.checkIn, req.checkOut)
      && (forall k :: k in s.bookings.rows ==> r.value.bookings.rows[k] == s.bookings.rows[k])
    ensures r.Ok? ==>
      && r.value.rooms.rows.Keys == s.rooms.rows.Keys
      && r.value.rooms.rows[req.room] == s.rooms.rows[req.room].(status := Occupied)
      && (forall k :: k in s.rooms.rows && k != req.room ==> r.value.rooms.rows[k] == s.rooms.rows[k])
    ensures r.Ok? ==> r.value.(bookings := s.bookings, rooms := s.rooms) == s
  {
    var fs := Violations(s, req);
    if fs != {} then Err(Invalid(fs))
    else if !Acquirable(s.rooms, caller, req.room) then Err(RoomUnavailable)
    else
      Ok(s.(bookings := Insert(s.bookings, FromRequest(caller, req)),
            rooms := Occupy(s.rooms, req.room)))
  }

  /** Update a booking. The booking must be in the caller's hotel (checked
      before validation). When the room changes, the new room is acquired
      before the old one is released; the release is NOT tenant-filtered.
      The booking keeps its tenant and takes the request's other fields. */
  function Update(s: State, caller: Id, id: Id, req: Request): (r: Result<State>)
    ensures !Owned(s, caller, id) ==> r == Err(NotFound)
    ensures Owned(s, caller, id) && Violations(s, req) != {} ==> r == Err(Invalid(Violations(s, req)))
    ensures Owned(s, caller, id) && Violations(s, req) == {}
            && s.bookings.rows[id].room != req.room && !Acquirable(s.rooms, caller, req.room)
            ==> r == Err(RoomUnavailable)
    ensures r.Ok? <==>
      && Owned(s, caller, id) && Violations(s, req) == {}
      && (s.bookings.rows[id].room != req.room ==> Acquirable(s.rooms, caller, req.room))
    ensures r.Ok? ==>
      var before := s.bookings.rows[id];
      && r.value.bookings.rows.Keys == s.bookings.rows.Keys
      && r.value.bookings.rows[id] == Booking(before.tenant, req.guest, req.room, req.checkIn, req.checkOut)
      && (forall k :: k in s.bookings.rows && k != id ==> r.value.bookings.rows[k] == s.bookings.rows[k])
    ensures r.Ok? && s.bookings.rows[id].room == req.room ==> r.value.rooms == s.rooms
    ensures r.Ok? && s.bookings.rows[id].room != req.room ==>
      var was := s.bookings.rows[id].room;
      && r.value.rooms.rows.Keys == s.rooms.rows.Keys
      && r.value.rooms.rows[req.room] == s.rooms.rows[req.room].(status := Occupied)
      && (was in s.rooms.rows ==> r.value.rooms.rows[was] == s.rooms.rows[was].(status := Available))
      && (forall k :: k in s.rooms.rows && k != req.room && k != was ==> r.value.rooms.rows[k] == s.rooms.rows[k])
    ensures r.Ok? ==> r.value.(bookings := s.bookings, rooms := s.rooms) == s
  {
    if !Owned(s, caller, id) then Err(NotFound)
    else
      var b := s.bookings.rows[id];
      var fs := Violations(s, req);
      if fs != {} then Err(Invalid(fs))
      else
        var updated := FromRequest(b.tenant, req);
        if b.room != req.room then
          if !Acquirable(s.rooms, caller, req.room) then Err(RoomUnavailable)
          else
            var rooms := Occupy(SetStatus(s.rooms, b.room, Available), req.room);
            Ok(s.(bookings := Put(s.bookings, id, updated), rooms := rooms))
        else
          Ok(s.(bookings := Put(s.bookings, id, updated)))
  }

  /** Delete a booking of the caller's hotel: its room is released (only if
      that room is in the caller's hotel), the row is removed, and the
      database cascades the delete to the notifications that reference it. */
  function Destroy(s: State, caller: Id, id: Id): (r: Result<State>)
    ensures !Owned(s, caller, id) ==> r == Err(NotFound)
    ensures Owned(s, caller, id) ==> r.Ok?
    ensures r.Ok? ==>
      && r.value.bookings.rows.Keys == s.bookings.rows.Keys - {id}
      && (forall k :: k in r.value.bookings.rows ==> r.value.bookings.rows[k] == s.bookings.rows[k])
    ensures r.Ok? ==>
      var room := s.bookings.rows[id].room;
      && r.value.rooms.rows.Keys == s.rooms.rows.Keys
      && (room in s.rooms.rows && s.rooms.rows[room].tenant == caller ==>
            r.value.rooms.rows[room] == s.rooms.rows[room].(status := Available))
      && (forall k :: k in s.rooms.rows && (k != room || s.rooms.rows[k].tenant != caller) ==> r.value.rooms.rows[k] == s.rooms.rows[k])
    ensures r.Ok? ==>
      && (forall n :: n in r.value.notifications <==> n in s.notifications && n.booking != Some(id))
      && (forall n: Notification :: n.booking != Some(id) ==> multiset(r.value.notifications)[n] == multiset(s.notifications)[n])
      && IsSubsequence(r.value.notifications, s.notifications)
    ensures r.Ok? ==> r.value.(bookings := s.bookings, rooms := s.rooms, notifications := s.notifications) == s
  {
    if !Owned(s, caller, id) then Err(NotFound)
    else
      var b := s.bookings.rows[id];
      Ok(s.(rooms := Release(s.rooms, caller, b.room),
            bookings := Delete(s.bookings, id),
            notifications := Notices.DropBooking(s.notifications, id)))
  }

  /** The update exactly as written. The stored room id is an integer while
      the submitted one is a string, and PHP's `!==` is true whenever the
      types differ, so the room-change branch runs on every call, also when
      the room is kept. `Update` is the evidently intended reading, which
      compares the id values. */
  function UpdateAsWritten(s: State, caller: Id, id: Id, req: Request): (r: Result<State>)
    ensures !Owned(s, caller, id) ==> r == Err(NotFound)
    ensures Owned(s, caller, id) && Violations(s, req) != {} ==> r == Err(Invalid(Violations(s, req)))
    ensures Owned(s, caller, id) && Violations(s, req) == {} && !Acquirable(s.rooms, caller, req.room)
            ==> r == Err(RoomUnavailable)
    ensures r.Ok? <==> Owned(s, caller, id) && Violations(s, req) == {} && Acquirable(s.rooms, caller, req.room)
    ensures r.Ok? ==>
      var before := s.bookings.rows[id];
      && r.value.bookings.rows.Keys == s.bookings.rows.Keys
      && r.value.bookings.rows[id] == Booking(before.tenant, req.guest, req.room, req.checkIn, req.checkOut)
      && (forall k :: k in s.bookings.rows && k != id ==> r.value.bookings.rows[k] == s.bookings.rows[k])
    ensures r.Ok? ==>
      var was := s.bookings.rows[id].room;
      && r.value.rooms.rows.Keys == s.rooms.rows.Keys
      && r.value.rooms.rows[req.room] == s.rooms.rows[req.room].(status := Occupied)
      && (was in s.rooms.rows && was != req.room ==> r.value.rooms.rows[was] == s.rooms.rows[was].(status := Available))
      && (forall k :: k in s.rooms.rows && k != req.room && k != was ==> r.value.rooms.rows[k] == s.rooms.rows[k])
    ensures r.Ok? ==> r.value.(bookings := s.bookings, rooms := s.rooms) == s
  {
    if !Owned(s, caller, id) then Err(NotFound)
    else
      var b := s.bookings.rows[id];
      var fs := Violations(s, req);
      if fs != {} then Err(Invalid(fs))
      else if !Acquirable(s.rooms, caller, req.room) then Err(RoomUnavailable)
      else
        var rooms := Occupy(SetStatus(s.rooms, b.room, Available), req.room);
        Ok(s.(bookings := Put(s.bookings, id, FromRequest(b.tenant, req)), rooms := rooms))
  }
}

=== FILE: domain.dfy ===
/** The records of the hotel application and the database state they live in.

    Field sets follow the Eloquent models: a booking carries its tenant,
    guest, room and stay dates; a room its tenant, number, type, nightly
    price and status; a guest its tenant, names, contact data and optional
    stay dates; a notification its tenant, type, title, optional booking and
    read flag. Calendar dates are day numbers, so "tomorrow" is `today + 1`. */
module Domain {
  import opened Base
  import opened Tables

  /** A calendar date as a day number. */
  type Day = int

  datatype RoomStatus = Available | Occupied | Maintenance

  datatype Role = Admin | Manager

  datatype Tenant = Tenant(hotelName: string)

  datatype Room = Room(
    tenant: Id,
    number: string,
    kind: string,
    price: int,
    status: RoomStatus)

  datatype Guest = Guest(
    tenant: Id,
    firstName: string,
    lastName: string,
    email: string,
    phone: string,
    checkIn: Option<Day>,
    checkOut: Option<Day>)

  datatype Booking = Booking(
    tenant: Id,
    guest: Id,
    room: Id,
    checkIn: Day,
    checkOut: Day)

  /** A row of the notifications table; `kind` is the `type` column. */
  datatype Notification = Notification(
    tenant: Id,
    kind: string,
    title: string,
    booking: Option<Id>,
    isRead: bool)

  datatype User = User(
    name: string,
    email: string,
    role: Role,
    tenant: Option<Id>,
    isActive: bool)

  /** The whole database: the tables the controllers read and write. A
      session row belongs to a user or, for a visitor, to nobody. */
  datatype State = State(
    tenants: map<Id, Tenant>,
    rooms: Table<Room>,
    guests: Table<Guest>,
    bookings: Table<Booking>,
    notifications: seq<Notification>,
    users: Table<User>,
    sessions: map<string, Option<Id>>)

  /** The request fields a validation rule can reject. */
  datatype Field =
    | GuestIdField | RoomIdField | CheckOutField
    | RoomNumberField | TypeField | PriceField | StatusField
    | FirstNameField | LastNameField | EmailField | PhoneField
    | RoleField | TenantIdField

  datatype Error =
    | Invalid(fields: set<Field>)   // the request failed validation on these fields
    | RoomUnavailable               // the room is not free in the caller's hotel
    | NotFound                      // no such row, or not in the caller's scope
    | OwnRole                       // an administrator tried to change their own role
    | OwnAccount                    // an administrator tried to delete themselves

  datatype Result<T> = Ok(value: T) | Err(error: Error)

  /** The characters PHP's `trim` strips. */
  predicate IsTrimmed(c: char) {
    c == ' ' || c == '\t' || c == '\n' || c == '\r' || c == '\0' || c == '\U{B}'
  }

  /** Laravel's `required` rejects a string that trims to nothing. */
  predicate Blank(s: string) {
    forall i :: 0 <= i < |s| ==> IsTrimmed(s[i])
  }

  /** `required|string|max:n`: present, not blank, at most `n` characters. */
  predicate RequiredString(s: string, max: nat) {
    !Blank(s) && |s| <= max
  }

  /** The field set `fs` plus `f` when the rule for `f` is broken. */
  function Check(fs: set<Field>, ok: bool, f: Field): set<Field> {
    if ok then fs else fs + {f}
  }
}

=== FILE: expiry.dfy ===
/** The scheduled expiry check: a sweep over the bookings for a given day
    that files a `booking_expired` notification for every booking whose stay
    is over while its room is still `occupied`, and a `booking_ending_soon`
    notification for every booking that checks out tomorrow. A notification
    is only inserted when none of that type exists for the booking yet, so
    the sweep can be rerun at will. It inserts rows and changes nothing
    else: an expired booking keeps its room occupied. */
module ExpiryCheck {
  import opened Base
  import opened Tables
  import opened Domain
  import Notices

  datatype Kind = Expired | EndingSoon

  /** The `type` column value of each kind. */
  function TypeName(k: Kind): string {
    match k
    case Expired => "booking_expired"
    case EndingSoon => "booking_ending_soon"
  }

  function Title(k: Kind): string {
    match k
    case Expired => "Booking Expired"
    case EndingSoon => "Booking Ending Soon"
  }

  /** The query of each pass. The expired pass wants a check-out strictly
      before today and an existing room whose status is `occupied`; the
      ending-soon pass wants a check-out of exactly tomorrow and ignores the
      room. */
  function Selected(s: State, today: Day, k: Kind, id: Id): (ok: bool)
    ensures ok ==> id in s.bookings.rows
    ensures ok && k == Expired ==>
      var b := s.bookings.rows[id];
      b.checkOut < today && b.room in s.rooms.rows && s.rooms.rows[b.room].status == Occupied
    ensures ok && k == EndingSoon ==> s.bookings.rows[id].checkOut == today + 1
    ensures id in s.bookings.rows && k == EndingSoon && s.bookings.rows[id].checkOut == today + 1 ==> ok
    ensures (id in s.bookings.rows && k == Expired && s.bookings.rows[id].checkOut < today
             && s.bookings.rows[id].room in s.rooms.rows && s.rooms.rows[s.bookings.rows[id].room].status == Occupied)
            ==> ok
  {
    id in s.bookings.rows &&
    var b := s.bookings.rows[id];
    match k
    case Expired =>
      b.checkOut < today && b.room in s.rooms.rows && s.rooms.rows[b.room].status == Occupied
    case EndingSoon =>
      b.checkOut == today + 1
  }

  /** Notification `n` is about booking `id` and has type `kind`. */
  predicate Refers(n: Notification, id: Id, kind: string) {
    n.booking == Some(id) && n.kind == kind
  }

  /** The existence check made before each insert. */
  predicate Exists(ns: seq<Notification>, id: Id, kind: string) {
    exists i :: 0 <= i < |ns| && Refers(ns[i], id, kind)
  }

  /** How many rows of type `kind` refer to booking `id`. */
  function Count(ns: seq<Notification>, id: Id, kind: string): nat
    decreases |ns|
  {
    if |ns| == 0 then 0
    else Count(ns[..|ns| - 1], id, kind) + (if Refers(ns[|ns| - 1], id, kind) then 1 else 0)
  }

  lemma {:induction false} ExistsIffCounted(ns: seq<Notification>, id: Id, kind: string)
    ensures Exists(ns, id, kind) <==> Count(ns, id, kind) > 0
    decreases |ns|
  {
    if |ns| > 0 {
      var init := ns[..|ns| - 1];
      ExistsIffCounted(init, id, kind);
      if Exists(init, id, kind) {
        var i :| 0 <= i < |init| && Refers(init[i], id, kind);
        assert ns[i] == init[i];
      }
      if Exists(ns, id, kind) && !Refers(ns[|ns| - 1], id, kind) {
        var i :| 0 <= i < |ns| && Refers(ns[i], id, kind);
        assert init[i] == ns[i];
      }
    }
  }

  lemma CountAppend(ns: seq<Notification>, n: Notification)
    ensures forall id, kind :: Count(ns + [n], id, kind) == Count(ns, id, kind) + (if Refers(n, id, kind) then 1 else 0)
  {
    assert (ns + [n])[..|ns|] == ns;
  }

  /** The row a pass inserts for booking `id`: the booking's tenant, the
      kind's type and title, and the migration's defaults. */
  function NoticeFor(s: State, k: Kind, id: Id): Notification
    requires id in s.bookings.rows
  {
    Notices.Create(s.bookings.rows[id].tenant, TypeName(k), Title(k), Some(id))
  }

  /** A row that a pass of kind `k` may have inserted. */
  predicate Filed(s: State, today: Day, k: Kind, n: Notification) {
    n.booking.Some? && Selected(s, today, k, n.booking.value) && n == NoticeFor(s, k, n.booking.value)
  }

  /** One pass over the bookings in the order the query returns them. The
      rows found in `ns` count for the existence check, and so do the rows
      the pass has inserted so far. */
  function Pass(ns: seq<Notification>, s: State, today: Day, k: Kind, order: seq<Id>): (r: seq<Notification>)
    ensures ns <= r
    ensures forall i :: |ns| <= i < |r| ==> Filed(s, today, k, r[i])
    ensures forall id, kind ::
              Count(r, id, kind) ==
                if kind == TypeName(k) && id in order && Selected(s, today, k, id) && Count(ns, id, kind) == 0
                then 1 else Count(ns, id, kind)
    decreases |order|
  {
    if |order| == 0 then ns
    else
      var done := Pass(ns, s, today, k, order[..|order| - 1]);
      var id := order[|order| - 1];
      assert forall x :: x in order <==> x in order[..|order| - 1] || x == id by {
        assert order == order[..|order| - 1] + [id];
      }
      if Selected(s, today, k, id) && !Exists(done, id, TypeName(k)) then
        ExistsIffCounted(done, id, TypeName(k));
        CountAppend(done, NoticeFor(s, k, id));
        done + [NoticeFor(s, k, id)]
      else
        ExistsIffCounted(done, id, TypeName(k));
        done
  }

  /** Booking `id` is due a notification of type `kind` on `today`. */
  predicate Due(s: State, today: Day, id: Id, kind: string) {
    (kind == TypeName(Expired) && Selected(s, today, Expired, id))
    || (kind == TypeName(EndingSoon) && Selected(s, today, EndingSoon, id))
  }

  /** `order` is an enumeration of the bookings table, in whatever order the
      database returns it: every booking is listed and nothing else is. */
  predicate Enumerates(s: State, order: seq<Id>) {
    && (forall id :: id in order ==> id in s.bookings.rows)
    && (forall id :: id in s.bookings.rows ==> id in order)
  }

  /** The whole command: the expired pass, then the ending-soon pass, both
      over the bookings as listed by `order`. */
  function Sweep(s: State, today: Day, order: seq<Id>): (r: State)
    requires Enumerates(s, order)
    ensures r.(notifications := s.notifications) == s
    ensures s.notifications <= r.notifications
    ensures forall i :: |s.notifications| <= i < |r.notifications| ==>
      var n := r.notifications[i];
      && n.booking.Some? && n.booking.value in s.bookings.rows
      && n.tenant == s.bookings.rows[n.booking.value].tenant
      && !n.isRead
      && ((n.kind == "booking_expired" && n.title == "Booking Expired" && Selected(s, today, Expired, n.booking.value))
          || (n.kind == "booking_ending_soon" && n.title == "Booking Ending Soon" && Selected(s, today, EndingSoon, n.booking.value)))
    ensures forall id, kind ::
              Count(r.notifications, id, kind) ==
                if Due(s, today, id, kind) && Count(s.notifications, id, kind) == 0
                then 1 else Count(s.notifications, id, kind)
  {
    var expired := Pass(s.notifications, s, today, Expired, order);
    var r := s.(notifications := Pass(expired, s, today, EndingSoon, order));
    assert forall i :: |s.notifications| <= i < |expired| ==> r.notifications[i] == expired[i];
    r
  }

  /** A pass inserts nothing when every booking it selects already has its
      notification. */
  lemma {:induction false} PassStable(ns: seq<Notification>, s: State, today: Day, k: Kind, order: seq<Id>)
    requires forall id :: id in order && Selected(s, today, k, id) ==> Count(ns, id, TypeName(k)) > 0
    ensures Pass(ns, s, today, k, order) == ns
    decreases |order|
  {
    if |order| > 0 {
      var init := order[..|order| - 1];
      var id := order[|order| - 1];
      forall x | x in init && Selected(s, today, k, x)
        ensures Count(ns, x, TypeName(k)) > 0
      {
        assert x in order;
      }
      PassStable(ns, s, today, k, init);
      ExistsIffCounted(ns, id, TypeName(k));
    }
  }

  /** Rerunning the sweep with the same bookings, rooms and day inserts
      nothing. */
  lemma SweepIdempotent(s: State, today: Day, order: seq<Id>)
    requires Enumerates(s, order)
    ensures Sweep(Sweep(s, today, order), today, order) == Sweep(s, today, order)
  {
    var once := Sweep(s, today, order);
    assert once.bookings == s.bookings && once.rooms == s.rooms;
    assert forall k, id :: Selected(once, today, k, id) == Selected(s, today, k, id);
    forall id | id in order && Selected(once, today, Expired, id)
      ensures Count(once.notifications, id, TypeName(Expired)) > 0
    {
      assert Due(s, today, id, TypeName(Expired));
    }
    PassStable(once.notifications, once, today, Expired, order);
    forall id | id in order && Selected(once, today, EndingSoon, id)
      ensures Count(once.notifications, id, TypeName(EndingSoon)) > 0
    {
      assert Due(s, today, id, TypeName(EndingSoon));
    }
    PassStable(once.notifications, once, today, EndingSoon, order);
  }

  /** Both directions of the command's promise: after the sweep every
      booking selected by a pass has a notification of that pass's type, and
      a booking selected by neither pass gains none. */
  lemma DueBookingNotified(s: State, today: Day, order: seq<Id>)
    requires Enumerates(s, order)
    ensures forall id, k :: Selected(s, today, k, id) ==> Count(Sweep(s, today, order).notifications, id, TypeName(k)) >= 1
    ensures forall id, kind :: !Due(s, today, id, kind) ==>
              Count(Sweep(s, today, order).notifications, id, kind) == Count(s.notifications, id, kind)
  {
    var r := Sweep(s, today, order).notifications;
    forall id, k | Selected(s, today, k, id)
      ensures Count(r, id, TypeName(k)) >= 1
    {
      assert Due(s, today, id, TypeName(k));
    }
  }

  /** The order in which the database lists the bookings does not matter:
      any two enumerations file the same notifications, counted per booking
      and type. */
  lemma SweepOrderIrrelevant(s: State, today: Day, order: seq<Id>, other: seq<Id>)
    requires Enumerates(s, order) && Enumerates(s, other)
    ensures Sweep(s, today, order).(notifications := s.notifications) == Sweep(s, today, other).(notifications := s.notifications)
    ensures forall id, kind ::
              Count(Sweep(s, today, order).notifications, id, kind) == Count(Sweep(s, today, other).notifications, id, kind)
  {
  }

  /** With at most one notification per booking and type before the sweep,
      there is at most one after it. */
  lemma AtMostOnePerBookingAndType(s: State, today: Day, order: seq<Id>)
    requires Enumerates(s, order)
    requires forall id, kind :: Count(s.notifications, id, kind) <= 1
    ensures forall id, kind :: Count(Sweep(s, today, order).notifications, id, kind) <= 1
  {
  }

  /** A stay cannot be both over and ending tomorrow, so one run never files
      both kinds for the same booking. */
  lemma NeverBothKinds(s: State, today: Day, order: seq<Id>, id: Id)
    requires Enumerates(s, order)
    ensures var r := Sweep(s, today, order).notifications;
      || Count(r, id, TypeName(Expired)) == Count(s.notifications, id, TypeName(Expired))
      || Count(r, id, TypeName(EndingSoon)) == Count(s.notifications, id, TypeName(EndingSoon))
  {
  }

  /** A booking that checked out on day 12 and still holds its room: the
      sweep on day 13 files one `booking_expired` notification for it, and
      the sweep on day 14 files nothing more. */
  lemma ExpiredOnceScenario()
    ensures
      var room := Room(1, "101", "Double", 80, Occupied);
      var booking := Booking(1, 5, 1, 10, 12);
      var s := State(map[1 := Tenant("Hotel")], RawTable(map[1 := room], 2), Empty(),
                     RawTable(map[1 := booking], 2), [], Empty(), map[]);
      var day13 := Sweep(s, 13, [1]);
      && day13.notifications == [Notification(1, "booking_expired", "Booking Expired", Some(1), false)]
      && Sweep(day13, 14, [1]) == day13
  {
    var room := Room(1, "101", "Double", 80, Occupied);
    var booking := Booking(1, 5, 1, 10, 12);
    var s := State(map[1 := Tenant("Hotel")], RawTable(map[1 := room], 2), Empty(),
                   RawTable(map[1 := booking], 2), [], Empty(), map[]);
    assert Selected(s, 13, Expired, 1);
    assert !Selected(s, 13, EndingSoon, 1);
    assert Pass([], s, 13, Expired, [1]) == [NoticeFor(s, Expired, 1)] by {
      assert [1][..0] == [];
      assert !Exists([], 1, TypeName(Expired));
    }
    assert [1][..0] == [];
    var day13 := Sweep(s, 13, [1]);
    assert day13.notifications == [NoticeFor(s, Expired, 1)];
    assert Exists(day13.notifications, 1, TypeName(Expired)) by {
      assert Refers(day13.notifications[0], 1, TypeName(Expired));
    }
    assert !Selected(day13, 14, EndingSoon, 1);
  }
}

=== FILE: guests.dfy ===
/** The guest controller: guests of the caller's hotel, created, shown,
    edited and deleted through the tenant filter. Stay dates are optional;
    a check-out, when given, may not precede the check-in. */
module Guests {
  import opened Base
  import opened Tables
  import opened Domain

  /** The submitted form. */
  datatype Input = Input(
    firstName: string,
    lastName: string,
    email: string,
    phone: string,
    checkIn: Option<Day>,
    checkOut: Option<Day>)

  /** `nullable|date|after_or_equal:check_in_date`: an absent check-out is
      fine; a present one must not precede the check-in. When the check-in
      is absent the model takes the reading in which Laravel's date
      comparison refuses the null compared value, so a check-out on its own
      fails the rule. */
  predicate StayOrdered(checkIn: Option<Day>, checkOut: Option<Day>) {
    match (checkIn, checkOut)
    case (_, None) => true
    case (None, Some(_)) => false
    case (Some(i), Some(o)) => i <= o
  }

  /** The rules shared by create and update. The syntax test of the `email`
      rule is Laravel's and is passed in as `isEmail`. */
  function Violations(input: Input, isEmail: string -> bool): (fs: set<Field>)
    ensures FirstNameField in fs <==> !RequiredString(input.firstName, 255)
    ensures LastNameField in fs <==> !RequiredString(input.lastName, 255)
    ensures EmailField in fs <==> !(RequiredString(input.email, 255) && isEmail(input.email))
    ensures PhoneField in fs <==> !RequiredString(input.phone, 20)
    ensures CheckOutField in fs <==> !StayOrdered(input.checkIn, input.checkOut)
    ensures fs <= {FirstNameField, LastNameField, EmailField, PhoneField, CheckOutField}
  {
    var fs := Check({}, RequiredString(input.firstName, 255), FirstNameField);
    var fs := Check(fs, RequiredString(input.lastName, 255), LastNameField);
    var fs := Check(fs, RequiredString(input.email, 255) && isEmail(input.email), EmailField);
    var fs := Check(fs, RequiredString(input.phone, 20), PhoneField);
    Check(fs, StayOrdered(input.checkIn, input.checkOut), CheckOutField)
  }

  /** The check-out rule spelled out: it fails exactly when a check-out is
      given and either no check-in is given or the check-out precedes it. */
  lemma CheckOutRule(input: Input, isEmail: string -> bool)
    ensures CheckOutField in Violations(input, isEmail) <==>
              input.checkOut.Some? && (input.checkIn.None? || input.checkOut.value < input.checkIn.value)
  {
  }

  function ToGuest(tenant: Id, input: Input): Guest {
    Guest(tenant, input.firstName, input.lastName, input.email, input.phone, input.checkIn, input.checkOut)
  }

  /** Guest `id` exists and belongs to the caller's hotel. */
  predicate Scoped(s: State, caller: Id, id: Id) {
    id in s.guests.rows && s.guests.rows[id].tenant == caller
  }

  /** The listing: the caller's guests and no others. */
  function Index(s: State, caller: Id): (r: map<Id, Guest>)
    ensures forall k :: k in r <==> Scoped(s, caller, k)
    ensures forall k :: k in r ==> k in s.guests.rows && r[k] == s.guests.rows[k] && r[k].tenant == caller
  {
    map k | k in s.guests.rows && s.guests.rows[k].tenant == caller :: s.guests.rows[k]
  }

  /** Create a guest for the caller's hotel: the new guest's tenant is the
      caller's, the other fields are the request's. */
  function Create(s: State, caller: Id, input: Input, isEmail: string -> bool): (r: Result<State>)
    ensures Violations(input, isEmail) != {} ==> r == Err(Invalid(Violations(input, isEmail)))
    ensures r.Ok? <==> Violations(input, isEmail) == {}
    ensures r.Ok? ==>
      NextKey(s.guests) !in s.guests.rows && r.value.guests.rows.Keys == s.guests.rows.Keys + {NextKey(s.guests)}
    ensures r.Ok? ==>
      var g := r.value.guests.rows[NextKey(s.guests)];
      && g.tenant == caller
      && g.firstName == input.firstName && g.lastName == input.lastName
      && g.email == input.email && g.phone == input.phone
      && g.checkIn == input.checkIn && g.checkOut == input.checkOut
      && StayOrdered(g.checkIn, g.checkOut)
      && (forall k :: k in s.guests.rows ==> r.value.guests.rows[k] == s.guests.rows[k])
    ensures r.Ok? ==> r.value.(guests := s.guests) == s
  {
    var fs := Violations(input, isEmail);
    if fs != {} then Err(Invalid(fs))
    else Ok(s.(guests := Insert(s.guests, ToGuest(caller, input))))
  }

  function Show(s: State, caller: Id, id: Id): (r: Result<Guest>)
    ensures r.Ok? <==> Scoped(s, caller, id)
    ensures r.Err? ==> r.error == NotFound
    ensures r.Ok? ==> r.value == s.guests.rows[id] && r.value.tenant == caller
  {
    if Scoped(s, caller, id) then Ok(s.guests.rows[id]) else Err(NotFound)
  }

  /** Edit a guest of the caller's hotel; the lookup comes before
      validation and the guest keeps its tenant. */
  function Update(s: State, caller: Id, id: Id, input: Input, isEmail: string -> bool): (r: Result<State>)
    ensures !Scoped(s, caller, id) ==> r == Err(NotFound)
    ensures Scoped(s, caller, id) && Violations(input, isEmail) != {} ==> r == Err(Invalid(Violations(input, isEmail)))
    ensures r.Ok? <==> Scoped(s, caller, id) && Violations(input, isEmail) == {}
    ensures r.Ok? ==> r.value.guests.rows.Keys == s.guests.rows.Keys
    ensures r.Ok? ==>
      var g := r.value.guests.rows[id];
      && g.tenant == caller
      && g.firstName == input.firstName && g.lastName == input.lastName
      && g.email == input.email && g.phone == input.phone
      && g.checkIn == input.checkIn && g.checkOut == input.checkOut
      && StayOrdered(g.checkIn, g.checkOut)
      && (forall k :: k in s.guests.rows && k != id ==> r.value.guests.rows[k] == s.guests.rows[k])
    ensures r.Ok? ==> r.value.(guests := s.guests) == s
  {
    if !Scoped(s, caller, id) then Err(NotFound)
    else
      var fs := Violations(input, isEmail);
      if fs != {} then Err(Invalid(fs))
      else Ok(s.(guests := Put(s.guests, id, ToGuest(s.guests.rows[id].tenant, input))))
  }

  /** Delete a guest of the caller's hotel; exactly that row goes. */
  function Destroy(s: State, caller: Id, id: Id): (r: Result<State>)
    ensures r.Ok? <==> Scoped(s, caller, id)
    ensures r.Err? ==> r.error == NotFound
    ensures r.Ok? ==>
      && r.value.guests.rows.Keys == s.guests.rows.Keys - {id}
      && (forall k :: k in r.value.guests.rows ==> r.value.guests.rows[k] == s.guests.rows[k])
      && r.value.(guests := s.guests) == s
  {
    if Scoped(s, caller, id) then Ok(s.(guests := Delete(s.guests, id))) else Err(NotFound)
  }

  /** A created guest is at once visible to its hotel under the fresh id,
      exactly as submitted. */
  lemma CreateThenShow(s: State, caller: Id, input: Input, isEmail: string -> bool)
    requires Create(s, caller, input, isEmail).Ok?
    ensures Show(Create(s, caller, input, isEmail).value, caller, NextKey(s.guests)) == Ok(ToGuest(caller, input))
  {
  }

  /** The listing and the single-guest view agree on every id. */
  lemma IndexAgreesWithShow(s: State, caller: Id, id: Id)
    ensures id in Index(s, caller) <==> Show(s, caller, id).Ok?
    ensures id in Index(s, caller) ==> Show(s, caller, id) == Ok(Index(s, caller)[id])
  {
  }

  /** Another hotel's create does not change what this hotel sees. */
  lemma CreateIsolated(s: State, caller: Id, other: Id, input: Input, isEmail: string -> bool)
    requires caller != other
    ensures Create(s, other, input, isEmail).Ok? ==>
              Index(Create(s, other, input, isEmail).value, caller) == Index(s, caller)
  {
  }
}

=== FILE: isolation.dfy ===
/** Tenant isolation across the hotel screens: a row of another hotel
    looks exactly like a missing one, and nothing changes. The one gap is
    the guest of a booking, whose existence is checked across all hotels. */
module Isolation {
  import opened Base
  import opened Tables
  import opened Domain
  import Bookings
  import Rooms
  import Guests

  /** Room `id` of another hotel: show, edit and delete all answer
      not-found, the same answer as for an id that does not exist. */
  lemma ForeignRoomNotFound(s: State, caller: Id, id: Id, input: Rooms.Input)
    requires id in s.rooms.rows && s.rooms.rows[id].tenant != caller
    ensures Rooms.Show(s, caller, id) == Err(NotFound)
    ensures Rooms.Update(s, caller, id, input) == Err(NotFound)
    ensures Rooms.Destroy(s, caller, id) == Err(NotFound)
    ensures Rooms.Show(s, caller, id) == Rooms.Show(s.(rooms := Delete(s.rooms, id)), caller, id)
  {
  }

  lemma ForeignGuestNotFound(s: State, caller: Id, id: Id, input: Guests.Input, isEmail: string -> bool)
    requires id in s.guests.rows && s.guests.rows[id].tenant != caller
    ensures Guests.Show(s, caller, id) == Err(NotFound)
    ensures Guests.Update(s, caller, id, input, isEmail) == Err(NotFound)
    ensures Guests.Destroy(s, caller, id) == Err(NotFound)
    ensures Guests.Show(s, caller, id) == Guests.Show(s.(guests := Delete(s.guests, id)), caller, id)
  {
  }

  /** A booking of another hotel cannot be edited or cancelled, and the
      answer comes before the request is even validated. */
  lemma ForeignBookingNotFound(s: State, caller: Id, id: Id, req: Bookings.Request)
    requires id in s.bookings.rows && s.bookings.rows[id].tenant != caller
    ensures Bookings.Update(s, caller, id, req) == Err(NotFound)
    ensures Bookings.Destroy(s, caller, id) == Err(NotFound)
  {
  }

  /** A room of another hotel can never be booked, whatever its status. */
  lemma ForeignRoomNotBookable(s: State, caller: Id, req: Bookings.Request)
    requires req.room in s.rooms.rows && s.rooms.rows[req.room].tenant != caller
    ensures Bookings.Create(s, caller, req).Err?
  {
  }

  /** The guest of a booking only needs to exist: hotel 1 can book its own
      free room for a guest that belongs to hotel 2. */
  lemma ForeignGuestBookable()
    ensures
      var s := State(map[1 := Tenant("One"), 2 := Tenant("Two")],
                     RawTable(map[1 := Room(1, "101", "Single", 50, Available)], 2),
                     RawTable(map[1 := Guest(2, "Ada", "Lovelace", "ada@example.org", "555", None, None)], 2),
                     Empty(), [], Empty(), map[]);
      && s.guests.rows[1].tenant != 1
      && Bookings.Create(s, 1, Bookings.Request(1, 1, 10, 12)).Ok?
  {
  }
}

=== FILE: notices.dfy ===
/** The notifications table as its migration defines it: a new row starts
    unread, `booking_id` may be null while `tenant_id` may not, and deleting
    the referenced booking or tenant deletes the row with it. */
module Notices {
  import opened Base
  import opened Tables
  import opened Domain

  /** A row as inserted with the column defaults filled in. */
  function Create(tenant: Id, kind: string, title: string, booking: Option<Id>): (n: Notification)
    ensures !n.isRead
    ensures n.tenant == tenant && n.kind == kind && n.title == title && n.booking == booking
  {
    Notification(tenant, kind, title, booking, false)
  }

  /** ON DELETE CASCADE on `booking_id`: the rows that survive the deletion
      of booking `id`. */
  function DropBooking(ns: seq<Notification>, id: Id): (r: seq<Notification>)
    ensures forall n :: n in r <==> n in ns && n.booking != Some(id)
    ensures forall n: Notification :: n.booking != Some(id) ==> multiset(r)[n] == multiset(ns)[n]
    ensures IsSubsequence(r, ns)
  {
    Filter(ns, (n: Notification) => n.booking != Some(id))
  }

  /** ON DELETE CASCADE on `tenant_id`: the rows that survive the deletion
      of tenant `t`. */
  function DropTenant(ns: seq<Notification>, t: Id): (r: seq<Notification>)
    ensures forall n :: n in r <==> n in ns && n.tenant != t
    ensures forall n: Notification :: n.tenant != t ==> multiset(r)[n] == multiset(ns)[n]
    ensures IsSubsequence(r, ns)
  {
    Filter(ns, (n: Notification) => n.tenant != t)
  }
}

=== FILE: occupancy.dfy ===
/** The occupancy invariant the booking controller maintains: every booking
    holds a room of its own hotel whose status is `occupied`, and no two
    bookings hold the same room. The database does not enforce it; only the
    order of writes in create, update and destroy keeps it. */
module Occupancy {
  import opened Base
  import opened Tables
  import opened Domain
  import opened Allocator
  import opened Bookings
  import Rooms

  /** Booking `b` holds its room: the room exists, belongs to the booking's
      hotel and is marked `occupied`. */
  predicate HoldsRoom(s: State, b: Booking) {
    b.room in s.rooms.rows
    && s.rooms.rows[b.room].status == Occupied
    && s.rooms.rows[b.room].tenant == b.tenant
  }

  ghost predicate Consistent(s: State) {
    && (forall id :: id in s.bookings.rows ==> HoldsRoom(s, s.bookings.rows[id]))
    && (forall i, j :: i in s.bookings.rows && j in s.bookings.rows && i != j
                       ==> s.bookings.rows[i].room != s.bookings.rows[j].room)
  }

  /** In a consistent state a room that is not `occupied` (in particular an
      `available` one) is held by no booking. */
  lemma FreeRoomIsUnbooked(s: State, room: Id)
    requires Consistent(s)
    requires room in s.rooms.rows && s.rooms.rows[room].status != Occupied
    ensures forall id :: id in s.bookings.rows ==> s.bookings.rows[id].room != room
  {
    forall id | id in s.bookings.rows
      ensures s.bookings.rows[id].room != room
    {
      assert HoldsRoom(s, s.bookings.rows[id]);
    }
  }

  lemma CreatePreserves(s: State, caller: Id, req: Request)
    requires Consistent(s)
    ensures Create(s, caller, req).Ok? ==> Consistent(Create(s, caller, req).value)
  {
    var r := Create(s, caller, req);
    if r.Ok? {
      var t := r.value;
      var key := NextKey(s.bookings);
      FreeRoomIsUnbooked(s, req.room);
      forall id | id in t.bookings.rows
        ensures HoldsRoom(t, t.bookings.rows[id])
      {
        if id != key {
          assert HoldsRoom(s, s.bookings.rows[id]);
        }
      }
    }
  }

  lemma UpdatePreserves(s: State, caller: Id, id: Id, req: Request)
    requires Consistent(s)
    ensures Update(s, caller, id, req).Ok? ==> Consistent(Update(s, caller, id, req).value)
  {
    var r := Update(s, caller, id, req);
    if r.Ok? {
      var t := r.value;
      var b := s.bookings.rows[id];
      assert HoldsRoom(s, b);
      if b.room != req.room {
        FreeRoomIsUnbooked(s, req.room);
        forall k | k in t.bookings.rows
          ensures HoldsRoom(t, t.bookings.rows[k])
        {
          if k != id {
            assert HoldsRoom(s, s.bookings.rows[k]);
            assert s.bookings.rows[k].room != b.room;
          }
        }
      } else {
        forall k | k in t.bookings.rows
          ensures HoldsRoom(t, t.bookings.rows[k])
        {
          assert HoldsRoom(s, s.bookings.rows[k]);
        }
      }
    }
  }

  /** The update as written preserves the invariant too. Under it the
      booking's own room is `occupied`, never acquirable, so a successful
      call always moves the booking to another room, where the as-written
      update and the corrected one agree. */
  lemma UpdateAsWrittenPreserves(s: State, caller: Id, id: Id, req: Request)
    requires Consistent(s)
    ensures UpdateAsWritten(s, caller, id, req).Ok? ==>
      && UpdateAsWritten(s, caller, id, req) == Update(s, caller, id, req)
      && Consistent(UpdateAsWritten(s, caller, id, req).value)
  {
    if UpdateAsWritten(s, caller, id, req).Ok? {
      assert HoldsRoom(s, s.bookings.rows[id]);
      UpdatePreserves(s, caller, id, req);
    }
  }

  lemma DestroyPreserves(s: State, caller: Id, id: Id)
    requires Consistent(s)
    ensures Destroy(s, caller, id).Ok? ==> Consistent(Destroy(s, caller, id).value)
  {
    var r := Destroy(s, caller, id);
    if r.Ok? {
      var t := r.value;
      var b := s.bookings.rows[id];
      forall k | k in t.bookings.rows
        ensures HoldsRoom(t, t.bookings.rows[k])
      {
        assert HoldsRoom(s, s.bookings.rows[k]);
        assert s.bookings.rows[k].room != b.room;
      }
    }
  }

  /** One call of the booking controller, with the update either as written
      or as corrected; a call that fails leaves the database as it was. */
  datatype Call =
    | CreateCall(caller: Id, req: Request)
    | UpdateCall(caller: Id, id: Id, req: Request)
    | UpdateAsWrittenCall(caller: Id, id: Id, req: Request)
    | DestroyCall(caller: Id, id: Id)

  function Outcome(s: State, c: Call): Result<State> {
    match c
    case CreateCall(caller, req) => Create(s, caller, req)
    case UpdateCall(caller, id, req) => Update(s, caller, id, req)
    case UpdateAsWrittenCall(caller, id, req) => UpdateAsWritten(s, caller, id, req)
    case DestroyCall(caller, id) => Destroy(s, caller, id)
  }

  function Apply(s: State, c: Call): State {
    var r := Outcome(s, c);
    if r.Ok? then r.value else s
  }

  /** Sequential calls, first to last. */
  function Run(s: State, calls: seq<Call>): State
    decreases |calls|
  {
    if |calls| == 0 then s else Run(Apply(s, calls[0]), calls[1..])
  }

  /** No sequence of booking calls, from any tenant and with either reading
      of the update, breaks the invariant. */
  lemma {:induction false} RunPreserves(s: State, calls: seq<Call>)
    requires Consistent(s)
    ensures Consistent(Run(s, calls))
    decreases |calls|
  {
    if |calls| > 0 {
      match calls[0] {
        case CreateCall(caller, req) => CreatePreserves(s, caller, req);
        case UpdateCall(caller, id, req) => UpdatePreserves(s, caller, id, req);
        case UpdateAsWrittenCall(caller, id, req) => UpdateAsWrittenPreserves(s, caller, id, req);
        case DestroyCall(caller, id) => DestroyPreserves(s, caller, id);
      }
      RunPreserves(Apply(s, calls[0]), calls[1..]);
    }
  }

  /** Occupancy is a single flag, not a date range: once a room is booked,
      a second booking of it fails whatever its dates, even when the stays
      do not overlap. */
  lemma BookedRoomRejectsAnyDates(s: State, caller: Id, req: Request, caller2: Id, req2: Request)
    requires Create(s, caller, req).Ok?
    requires req2.room == req.room
    requires Violations(Create(s, caller, req).value, req2) == {}
    ensures Create(Create(s, caller, req).value, caller2, req2) == Err(RoomUnavailable)
  {
  }

  /** A room released by deleting its booking can be booked again in the
      same hotel. */
  lemma DestroyFreesRoom(s: State, caller: Id, id: Id)
    requires Consistent(s)
    requires Owned(s, caller, id)
    ensures Destroy(s, caller, id).Ok?
    ensures Acquirable(Destroy(s, caller, id).value.rooms, caller, s.bookings.rows[id].room)
  {
    assert HoldsRoom(s, s.bookings.rows[id]);
  }

  /** The edit form always resubmits the booking's own room. As written, the
      controller then takes the room-change branch and looks for that room
      among the available ones; it is occupied by the very booking being
      edited, so the edit is refused. */
  lemma KeptRoomEditRefusedAsWritten(s: State, caller: Id, id: Id, req: Request)
    requires Consistent(s)
    requires Owned(s, caller, id) && Violations(s, req) == {}
    requires req.room == s.bookings.rows[id].room
    ensures UpdateAsWritten(s, caller, id, req) == Err(RoomUnavailable)
  {
    assert HoldsRoom(s, s.bookings.rows[id]);
  }

  /** With the comparison made on the id values, the same edit succeeds and
      leaves every room as it was. */
  lemma KeptRoomEditAccepted(s: State, caller: Id, id: Id, req: Request)
    requires Consistent(s)
    requires Owned(s, caller, id) && Violations(s, req) == {}
    requires req.room == s.bookings.rows[id].room
    ensures Update(s, caller, id, req).Ok?
    ensures Update(s, caller, id, req).value.rooms == s.rooms
    ensures Update(s, caller, id, req).value.bookings.rows[id] == FromRequest(caller, req)
  {
  }

  /** A hotel with one occupied room held by one booking. */
  function OneStay(): State {
    State(map[1 := Tenant("Hotel")],
          RawTable(map[1 := Room(1, "101", "Double", 80, Occupied)], 2),
          RawTable(map[1 := Guest(1, "Ada", "Lovelace", "ada@example.org", "555", None, None)], 2),
          RawTable(map[1 := Booking(1, 1, 1, 10, 12)], 2),
          [], Empty(), map[])
  }

  /** The room screen may set any status directly: marking a booked room
      `available` is accepted and breaks the invariant, after which a second
      booking of the same room goes through. */
  lemma RoomEditBreaksOccupancy()
    ensures Consistent(OneStay())
    ensures Rooms.Update(OneStay(), 1, 1, Rooms.Input("101", "Double", 80, "available")).Ok?
    ensures var t := Rooms.Update(OneStay(), 1, 1, Rooms.Input("101", "Double", 80, "available")).value;
            && !Consistent(t)
            && Create(t, 1, Request(1, 1, 20, 22)).Ok?
  {
    var s := OneStay();
    assert HoldsRoom(s, s.bookings.rows[1]);
    assert Rooms.Violations(Rooms.Input("101", "Double", 80, "available")) == {} by {
      assert !Blank("101") by { assert !IsTrimmed("101"[0]); }
      assert !Blank("Double") by { assert !IsTrimmed("Double"[0]); }
    }
    var t := Rooms.Update(s, 1, 1, Rooms.Input("101", "Double", 80, "available")).value;
    assert !HoldsRoom(t, t.bookings.rows[1]);
  }
}

=== FILE: rooms.dfy ===
/** The room controller: rooms of the caller's hotel, created, shown,
    edited and deleted through the tenant filter. The owning tenant is never
    taken from the request. */
module Rooms {
  import opened Base
  import opened Tables
  import opened Domain

  /** The submitted form; `status` is the raw string of the request. */
  datatype Input = Input(number: string, kind: string, price: int, status: string)

  function StatusName(st: RoomStatus): string {
    match st
    case Available => "available"
    case Occupied => "occupied"
    case Maintenance => "maintenance"
  }

  /** The `in:available,occupied,maintenance` rule, read as a status. */
  function ParseStatus(s: string): Option<RoomStatus> {
    if s == "available" then Some(Available)
    else if s == "occupied" then Some(Occupied)
    else if s == "maintenance" then Some(Maintenance)
    else None
  }

  /** Exactly the three status names are accepted, each as its own status. */
  lemma ParseStatusInverse(s: string, st: RoomStatus)
    ensures ParseStatus(s) == Some(st) <==> s == StatusName(st)
    ensures ParseStatus(s).None? <==> s !in {"available", "occupied", "maintenance"}
  {
  }

  /** The rules shared by create and update. */
  function Violations(input: Input): (fs: set<Field>)
    ensures RoomNumberField in fs <==> !RequiredString(input.number, 50)
    ensures TypeField in fs <==> !RequiredString(input.kind, 100)
    ensures PriceField in fs <==> input.price < 0
    ensures StatusField in fs <==> ParseStatus(input.status).None?
    ensures fs <= {RoomNumberField, TypeField, PriceField, StatusField}
  {
    var fs := Check({}, RequiredString(input.number, 50), RoomNumberField);
    var fs := Check(fs, RequiredString(input.kind, 100), TypeField);
    var fs := Check(fs, 0 <= input.price, PriceField);
    Check(fs, ParseStatus(input.status).Some?, StatusField)
  }

  function ToRoom(tenant: Id, input: Input): Room
    requires ParseStatus(input.status).Some?
  {
    Room(tenant, input.number, input.kind, input.price, ParseStatus(input.status).value)
  }

  /** Room `id` exists and belongs to the caller's hotel. */
  predicate Scoped(s: State, caller: Id, id: Id) {
    id in s.rooms.rows && s.rooms.rows[id].tenant == caller
  }

  /** The listing: the caller's rooms and no others. */
  function Index(s: State, caller: Id): (r: map<Id, Room>)
    ensures forall k :: k in r <==> Scoped(s, caller, k)
    ensures forall k :: k in r ==> k in s.rooms.rows && r[k] == s.rooms.rows[k] && r[k].tenant == caller
  {
    map k | k in s.rooms.rows && s.rooms.rows[k].tenant == caller :: s.rooms.rows[k]
  }

  /** Create a room for the caller's hotel: whatever the request, the new
      room's tenant is the caller's. */
  function Create(s: State, caller: Id, input: Input): (r: Result<State>)
    ensures Violations(input) != {} ==> r == Err(Invalid(Violations(input)))
    ensures r.Ok? <==> Violations(input) == {}
    ensures r.Ok? ==>
      NextKey(s.rooms) !in s.rooms.rows && r.value.rooms.rows.Keys == s.rooms.rows.Keys + {NextKey(s.rooms)}
    ensures r.Ok? ==>
      var room := r.value.rooms.rows[NextKey(s.rooms)];
      && room.tenant == caller
      && room.number == input.number && room.kind == input.kind && room.price == input.price
      && StatusName(room.status) == input.status
      && (forall k :: k in s.rooms.rows ==> r.value.rooms.rows[k] == s.rooms.rows[k])
    ensures r.Ok? ==> r.value.(rooms := s.rooms) == s
  {
    var fs := Violations(input);
    if fs != {} then Err(Invalid(fs))
    else Ok(s.(rooms := Insert(s.rooms, ToRoom(caller, input))))
  }

  function Show(s: State, caller: Id, id: Id): (r: Result<Room>)
    ensures r.Ok? <==> Scoped(s, caller, id)
    ensures r.Err? ==> r.error == NotFound
    ensures r.Ok? ==> r.value == s.rooms.rows[id] && r.value.tenant == caller
  {
    if Scoped(s, caller, id) then Ok(s.rooms.rows[id]) else Err(NotFound)
  }

  /** Edit a room of the caller's hotel. The lookup comes before validation;
      every field is replaced, including the status, which may be set to any
      of the three values regardless of the bookings. */
  function Update(s: State, caller: Id, id: Id, input: Input): (r: Result<State>)
    ensures !Scoped(s, caller, id) ==> r == Err(NotFound)
    ensures Scoped(s, caller, id) && Violations(input) != {} ==> r == Err(Invalid(Violations(input)))
    ensures r.Ok? <==> Scoped(s, caller, id) && Violations(input) == {}
    ensures r.Ok? ==> r.value.rooms.rows.Keys == s.rooms.rows.Keys
    ensures r.Ok? ==>
      var room := r.value.rooms.rows[id];
      && room.tenant == caller
      && room.number == input.number && room.kind == input.kind && room.price == input.price
      && StatusName(room.status) == input.status
      && (forall k :: k in s.rooms.rows && k != id ==> r.value.rooms.rows[k] == s.rooms.rows[k])
    ensures r.Ok? ==> r.value.(rooms := s.rooms) == s
  {
    if !Scoped(s, caller, id) then Err(NotFound)
    else
      var fs := Violations(input);
      if fs != {} then Err(Invalid(fs))
      else Ok(s.(rooms := Put(s.rooms, id, ToRoom(s.rooms.rows[id].tenant, input))))
  }

  /** Delete a room of the caller's hotel; exactly that row goes. */
  function Destroy(s: State, caller: Id, id: Id): (r: Result<State>)
    ensures r.Ok? <==> Scoped(s, caller, id)
    ensures r.Err? ==> r.error == NotFound
    ensures r.Ok? ==>
      && r.value.rooms.rows.Keys == s.rooms.rows.Keys - {id}
      && (forall k :: k in r.value.rooms.rows ==> r.value.rooms.rows[k] == s.rooms.rows[k])
      && r.value.(rooms := s.rooms) == s
  {
    if Scoped(s, caller, id) then Ok(s.(rooms := Delete(s.rooms, id))) else Err(NotFound)
  }

  /** A created room is at once visible to its hotel under the fresh id,
      exactly as submitted. */
  lemma CreateThenShow(s: State, caller: Id, input: Input)
    requires Create(s, caller, input).Ok?
    ensures Show(Create(s, caller, input).value, caller, NextKey(s.rooms)) == Ok(ToRoom(caller, input))
  {
  }

  /** The listing and the single-room view agree on every id. */
  lemma IndexAgreesWithShow(s: State, caller: Id, id: Id)
    ensures id in Index(s, caller) <==> Show(s, caller, id).Ok?
    ensures id in Index(s, caller) ==> Show(s, caller, id) == Ok(Index(s, caller)[id])
  {
  }

  /** Another hotel's create does not change what this hotel sees. */
  lemma CreateIsolated(s: State, caller: Id, other: Id, input: Input)
    requires caller != other
    ensures Create(s, other, input).Ok? ==> Index(Create(s, other, input).value, caller) == Index(s, caller)
  {
  }
}

=== FILE: tables.dfy ===
/** Database tables with an auto-increment primary key.

    Every table of the hotel schema (rooms, guests, bookings, users) keys its
    rows by a positive integer that the database hands out in increasing
    order. A table is modelled as the map of its rows together with the next
    key the counter will hand out; the subset type keeps every existing key
    below the counter, which is what makes a freshly inserted key new. */
module Tables {

  /** Primary keys start at 1, so an id is never the falsy 0. */
  type Id = n: nat | 0 < n witness 1

  datatype RawTable<T> = RawTable(rows: map<Id, T>, next: Id)

  predicate Counted<T>(t: RawTable<T>) {
    forall k :: k in t.rows ==> k < t.next
  }

  type Table<T> = t: RawTable<T> | Counted(t) witness RawTable(map[], 1)

  function Empty<T>(): (t: Table<T>)
    ensures t.rows == map[]
  {
    RawTable(map[], 1)
  }

  /** The key the next insertion receives. */
  function NextKey<T>(t: Table<T>): (k: Id)
    ensures k !in t.rows
  {
    t.next
  }

  /** INSERT: the row lands under a key that no existing row has. */
  function Insert<T>(t: Table<T>, v: T): (r: Table<T>)
    ensures r.rows.Keys == t.rows.Keys + {NextKey(t)}
    ensures NextKey(t) !in t.rows && r.rows[NextKey(t)] == v
    ensures forall k :: k in t.rows ==> r.rows[k] == t.rows[k]
    ensures |r.rows| == |t.rows| + 1
  {
    RawTable(t.rows[t.next := v], t.next + 1)
  }

  /** UPDATE of an existing row (a missing key leaves the table as it is). */
  function Put<T>(t: Table<T>, k: Id, v: T): (r: Table<T>)
    ensures r.rows.Keys == t.rows.Keys
    ensures k in t.rows ==> r.rows[k] == v
    ensures forall j :: j in t.rows && j != k ==> r.rows[j] == t.rows[j]
    ensures k !in t.rows ==> r == t
  {
    if k in t.rows then RawTable(t.rows[k := v], t.next) else t
  }

  /** DELETE of one row; the counter never goes back. */
  function Delete<T>(t: Table<T>, k: Id): (r: Table<T>)
    ensures r.rows.Keys == t.rows.Keys - {k}
    ensures forall j :: j in r.rows ==> r.rows[j] == t.rows[j]
    ensures k in t.rows ==> |r.rows| == |t.rows| - 1
  {
    RawTable(t.rows - {k}, t.next)
  }
}

=== FILE: user_roles.dfy ===
/** The user-role screen of the administrator: list the other users, change
    a user's role, delete a user. An administrator cannot touch their own
    account here, and any real role change logs the user out everywhere. */
module UserRoles {
  import opened Base
  import opened Tables
  import opened Domain

  function RoleName(r: Role): string {
    match r
    case Admin => "admin"
    case Manager => "manager"
  }

  /** The `in:admin,manager` rule, read as a role. */
  function ParseRole(s: string): Option<Role> {
    if s == "admin" then Some(Admin)
    else if s == "manager" then Some(Manager)
    else None
  }

  /** Exactly the two role names are accepted, each as its own role. */
  lemma ParseRoleInverse(s: string, r: Role)
    ensures ParseRole(s) == Some(r) <==> s == RoleName(r)
    ensures ParseRole(s).None? <==> s != "admin" && s != "manager"
  {
  }

  /** The listing: every user except the one asking. */
  function Index(s: State, actor: Id): (r: map<Id, User>)
    ensures r.Keys == s.users.rows.Keys - {actor}
    ensures forall k :: k in r ==> r[k] == s.users.rows[k]
  {
    map k | k in s.users.rows && k != actor :: s.users.rows[k]
  }

  /** `DELETE FROM sessions WHERE user_id = user`: the sessions of other
      users and of visitors stay. */
  function DropSessions(sessions: map<string, Option<Id>>, user: Id): (r: map<string, Option<Id>>)
    ensures forall k :: k in r <==> k in sessions && sessions[k] != Some(user)
    ensures forall k :: k in r ==> r[k] == sessions[k]
  {
    map k | k in sessions && sessions[k] != Some(user) :: sessions[k]
  }

  /** The user row after its role changes from its current one to `role`:
      leaving the administrator role also leaves the hotel. */
  function WithRole(u: User, role: Role): User {
    if u.role == Admin && role == Manager then u.(role := role, tenant := None)
    else u.(role := role)
  }

  /** Change the role of user `id`. The role is validated first, then the
      actor may not target themselves, then the user must exist. Asking for
      the role the user already has changes nothing. */
  function UpdateRole(s: State, actor: Id, id: Id, role: string): (r: Result<State>)
    ensures ParseRole(role).None? ==> r == Err(Invalid({RoleField}))
    ensures ParseRole(role).Some? && actor == id ==> r == Err(OwnRole)
    ensures ParseRole(role).Some? && actor != id && id !in s.users.rows ==> r == Err(NotFound)
    ensures r.Ok? <==> ParseRole(role).Some? && actor != id && id in s.users.rows
    ensures r.Ok? && RoleName(s.users.rows[id].role) == role ==> r.value == s
    ensures r.Ok? && RoleName(s.users.rows[id].role) != role ==>
      var before := s.users.rows[id];
      && r.value.users.rows.Keys == s.users.rows.Keys
      && RoleName(r.value.users.rows[id].role) == role
      && (before.role == Admin ==> r.value.users.rows[id].tenant.None?)
      && (before.role == Manager ==> r.value.users.rows[id].tenant == before.tenant)
      && r.value.users.rows[id].(role := before.role, tenant := before.tenant) == before
      && (forall k :: k in s.users.rows && k != id ==> r.value.users.rows[k] == s.users.rows[k])
    ensures r.Ok? && RoleName(s.users.rows[id].role) != role ==>
      && (forall k :: k in r.value.sessions <==> k in s.sessions && s.sessions[k] != Some(id))
      && (forall k :: k in r.value.sessions ==> r.value.sessions[k] == s.sessions[k])
      && r.value.(users := s.users, sessions := s.sessions) == s
  {
    match ParseRole(role)
    case None => Err(Invalid({RoleField}))
    case Some(newRole) =>
      if actor == id then Err(OwnRole)
      else if id !in s.users.rows then Err(NotFound)
      else
        var u := s.users.rows[id];
        if u.role == newRole then Ok(s)
        else Ok(s.(users := Put(s.users, id, WithRole(u, newRole)),
                   sessions := DropSessions(s.sessions, id)))
  }

  /** Delete user `id` together with all of their sessions; nobody else's
      row or session goes. */
  function Destroy(s: State, actor: Id, id: Id): (r: Result<State>)
    ensures actor == id ==> r == Err(OwnAccount)
    ensures actor != id && id !in s.users.rows ==> r == Err(NotFound)
    ensures r.Ok? <==> actor != id && id in s.users.rows
    ensures r.Ok? ==>
      && r.value.users.rows.Keys == s.users.rows.Keys - {id}
      && (forall k :: k in r.value.users.rows ==> r.value.users.rows[k] == s.users.rows[k])
      && (forall k :: k in r.value.sessions <==> k in s.sessions && s.sessions[k] != Some(id))
      && (forall k :: k in r.value.sessions ==> r.value.sessions[k] == s.sessions[k])
      && r.value.(users := s.users, sessions := s.sessions) == s
  {
    if actor == id then Err(OwnAccount)
    else if id !in s.users.rows then Err(NotFound)
    else Ok(s.(users := Delete(s.users, id), sessions := DropSessions(s.sessions, id)))
  }

  /** Whatever the request, the acting administrator's own row and sessions
      survive both operations. */
  lemma ActorUntouched(s: State, actor: Id, id: Id, role: string)
    requires actor in s.users.rows
    ensures UpdateRole(s, actor, id, role).Ok? ==>
      var t := UpdateRole(s, actor, id, role).value;
      actor in t.users.rows && t.users.rows[actor] == s.users.rows[actor]
      && forall k :: k in s.sessions && s.sessions[k] == Some(actor) ==> k in t.sessions
    ensures Destroy(s, actor, id).Ok? ==>
      var t := Destroy(s, actor, id).value;
      actor in t.users.rows && t.users.rows[actor] == s.users.rows[actor]
      && forall k :: k in s.sessions && s.sessions[k] == Some(actor) ==> k in t.sessions
  {
  }

  /** The listing shows exactly the users the actor may delete: every
      existing user except the actor's own account. */
  lemma IndexListsDeletable(s: State, actor: Id, id: Id)
    ensures id in Index(s, actor) <==> Destroy(s, actor, id).Ok?
    ensures id in Index(s, actor) <==> id in s.users.rows && Destroy(s, actor, id) != Err(OwnAccount)
  {
  }
}
